=== FILE: README.md ===
# Node-map generation of json-ld, in Dafny

This project models the flattening engine of the `json-ld` crate. That engine is
the node-map generation step of section 7.2 of the JSON-LD 1.1 Processing
Algorithms and API. The project also models two small value types of the crate:
language-tagged strings and the `@version` tag.

Flattening walks an expanded document. The document is a sequence of value,
list and node objects, each of which may carry an `@index`.
- Every node gets a canonical identifier from a namespace. Blank node labels are
  renamed once, through an injected generator, and IRIs pass through unchanged.
- Each graph keeps exactly one record per identifier.
- The graph content of a node goes into a named graph keyed by the node's
  identifier.
- Reverse properties become forward edges on their subjects.
- The walk stops at the first `ConflictingIndexes`: the same node declared with
  two different indexes.

Everything is a pure function. The namespace and the node map are immutable
values threaded through the walk as a `State`. Every step returns a
`Result<Step<T>, ConflictingIndexes>`, and `:-` plays the role of Rust's `?`.

Modules, one per concept:
- `Wrappers`: `Option` and `Result`.
- `Versions`: the `Version` enum.
- `LangStrings`: `LangString` and its JSON reader.
- `Namespaces`: node references and the identifier namespace.
- `Objects`: expanded objects, flattened objects and node records.
- `UniqueInsert`: the property-map insertions that never repeat a (property, value) pair.
- `NodeMapGraphs`: `NodeMapGraph`.
- `NodeMaps`: `NodeMap`.
- `Invariants`: what flattening keeps true of a node map.
  - "Grows": records are never deleted and only gain content.
  - "Sound": every record is stored under its own identifier, every reference
    names a record of its graph, and nested content lives in the named graph of
    its node.
- `Descriptions`: what a finished walk leaves behind, stated recursively.
  - An object's "full flattening": a value's copy, a list's flattened items, or a reference to the id the namespace stands for the node.
  - A node "described in full": its record, its graph content, its included nodes, its listed property values and its reverse edges, each nested node again described in full.
  - Both stay true as the walk goes on.
- `Flattening`: `extend_node_map`, `extend_node_map_from_node` and `generate_node_map`.
- `Scenarios`: worked cases on concrete documents.

`contains`, `get`, `into_parts`, `parts`, `as_str`, `language`, `direction`,
`into_str` and `into_bytes` are field reads. They are modelled as plain functions
(`Contains`, `Get`, `IntoParts`, `AsStr`, `Language`, `GetDirection`, `IntoStr`,
`IntoBytes`) and are covered by the lemmas that use them.

## Model

| member | source | states |
|---|---|---|
| Versions.FromStr | syntax/src/context/definition/version.rs:63-72 | Parsing succeeds exactly when the string is the printed form of a version, and the version then prints as the input. Any other string gives `UnknownVersion` carrying the input verbatim. |
| Versions.RoundTrip | syntax/src/context/definition/version.rs:22-26 | Parsing the printed form of a version gives that version back. |
| Versions.ParseThenPrint | syntax/src/context/definition/version.rs:66-72 | A successful parse prints back to the parsed string. A failed parse is exactly `UnknownVersion(s)`. |
| Versions.BytesAreStr | syntax/src/context/definition/version.rs:16-26 | Every character of `into_str` is ASCII, and `into_bytes` is its UTF-8 encoding: one byte per character, of the same code. |
| Versions.HashAgreesWithEqual | syntax/src/context/definition/version.rs:37-49 | Any two versions are equal, and equal versions feed the same text to the hasher, so `Hash` agrees with `PartialEq`. |
| LangStrings.New | core/src/lang_string.rs:22-36 | Succeeds exactly when a language or a direction is given, storing the three fields unchanged. Otherwise it hands back the original text. |
| LangStrings.PartsRoundTrip | core/src/lang_string.rs:38-62 | The parts and accessors of a valid language string are its stored fields, and rebuilding from the parts gives the same string. |
| LangStrings.NewThenParts | core/src/lang_string.rs:38-50 | The parts of a freshly built language string are the constructor's arguments. |
| LangStrings.SetLanguage | core/src/lang_string.rs:64-78 | Fails exactly when removing the language while there is no direction. On failure the value is unchanged. On success only the language changes, and the invariant still holds. |
| LangStrings.SetDirection | core/src/lang_string.rs:86-97 | Fails exactly when removing the direction while there is no language. On failure the value is unchanged. On success only the direction changes, and the invariant still holds. |
| LangStrings.Set | core/src/lang_string.rs:99-115 | Fails exactly when both are absent, leaving the value unchanged. Otherwise it sets both fields and keeps the text. |
| LangStrings.EditsPreserveValid | core/src/lang_string.rs:3-14 | No sequence of setter calls, whether accepted or refused, takes a valid language string out of the invariant "language or direction present". |
| LangStrings.NewThenEditsValid | core/src/lang_string.rs:27-36 | Every language string built by `new` and then edited by any setters satisfies the invariant. |
| LangStrings.TryFromJson | core/src/lang_string.rs:117-165 | It succeeds exactly when every check passes. The checks run in source order with their errors: non-string value, then non-string language, then non-string direction (`Unexpected` with the kind found), then an unparsable direction (`InvalidDirection`), then a leftover entry (`UnexpectedEntry`). On success the text, tag and parsed direction are stored. The precondition excludes exactly the inputs on which the final `unwrap` panics. |
| Namespaces.Assign | core/src/flattening/node_map.rs:326 | An IRI or invalid reference is kept. A missing identifier draws the next generator output. An unseen blank label gets the next generator output, which is remembered for it, and the counter advances. A blank label seen before gets its remembered identifier and leaves the namespace unchanged. Earlier renamings are never changed. |
| Namespaces.AssignAll | core/src/flattening/node_map.rs:333-337 | The type identifiers are assigned one by one, one output per input type. Each IRI or invalid reference is kept. Each blank label becomes the identifier the final namespace remembers for it. Earlier renamings are kept. |
| Namespaces.AssignStable | core/src/flattening/node_map.rs:326 | Once a source has been assigned, every later namespace state assigns it the same identifier again and is left unchanged. |
| Namespaces.AssignNames | core/src/flattening/node_map.rs:326 | The identifier assigned to a source is the one every later namespace state stands for it. That is the IRI itself, the remembered renaming of the blank label, or, with no source, one of the generator outputs drawn so far. |
| Namespaces.NamesPersist | core/src/flattening/node_map.rs:326 | What a namespace stands for a source stays so in every later state, because renamings are never changed and outputs are never taken back. |
| Namespaces.AssignKeepsGood | core/src/flattening/node_map.rs:326 | Given a generator of fresh blank identifiers, assignment keeps the namespace injective, and every renaming comes from a generator call already made. |
| Namespaces.DistinctSourcesDistinctIds | core/src/flattening/node_map.rs:326 | Given a generator of fresh blank identifiers, two different references assigned one after the other get different identifiers. |
| Namespaces.AssignAllKeepsGood | core/src/flattening/node_map.rs:333-337 | Given a generator of fresh blank identifiers, assigning the identifiers of a node's types one by one keeps the namespace injective and issued. |
| Namespaces.NamesDistinct | core/src/flattening/node_map.rs:326 | Given a generator of fresh blank identifiers and an injective namespace, two different explicit references never stand for the same identifier. |
| UniqueInsert.AppendUnique | core/src/flattening/node_map.rs:226-229 | Appending values uniquely keeps the old sequence as a prefix, contains every new value, adds nothing else, and adds no duplicates. |
| UniqueInsert.AppendIdempotent | core/src/flattening/node_map.rs:226-229 | Appending the same values uniquely a second time changes nothing. |
| UniqueInsert.InsertAllUnique | core/src/flattening/node_map.rs:379-385 | `insert_all_unique` creates the property if absent, keeps its old values as a prefix, adds every new value and nothing else, and leaves other properties alone. |
| UniqueInsert.InsertUnique | core/src/flattening/node_map.rs:406-409 | `insert_unique` leaves the value present under the property. It changes nothing if the pair was already there, and otherwise appends the value at the end. Other properties are left alone. |
| UniqueInsert.ExtendUnique | core/src/flattening/node_map.rs:226-229 | `extend_unique` merges property maps so that old (property, value) pairs stay in order, incoming pairs are all present, no other pair appears, and a duplicate-free map stays duplicate-free. |
| UniqueInsert.ExtendIdempotent | core/src/flattening/node_map.rs:226-229 | Extending twice with the same properties gives the same map as extending once. |
| NodeMapGraphs.DeclareNode | core/src/flattening/node_map.rs:162-189 | Fails exactly when the node exists and has a stored index that differs from a supplied one. The error carries the id, the stored index and the new index. On success the record exists and no other record changes. A new record has the given index. An existing record gains an index only when it had none, so `None` never clears one. |
| NodeMapGraphs.Get | core/src/flattening/node_map.rs:154-156 | `get` returns a record exactly when `contains` holds. The record is the one stored for the id, and in a well-keyed graph it carries that id. |
| NodeMapGraphs.ContainsTracksEdits | core/src/flattening/node_map.rs:150-152 | `contains` is false on an empty graph. After a successful `declare_node` it holds exactly for the old ids and the declared one. After `merge_with` it holds exactly for the ids of either graph. |
| NodeMapGraphs.DeclareAgain | core/src/flattening/node_map.rs:167-180 | Declaring a node again with the same index after a successful declaration is a no-op. |
| NodeMapGraphs.MergeNode | core/src/flattening/node_map.rs:200-231 | A record without an id leaves the graph unchanged. Otherwise the record for its id exists afterwards, and no other record changes. |
| NodeMapGraphs.MergeNodeEffect | core/src/flattening/node_map.rs:208-229 | After `merge_node`: the types are the old ones followed by the incoming ones. The index is replaced only by an incoming `Some`. Graph and included are overwritten. Properties and reverse properties only gain pairs. They are duplicate-free afterwards whenever the old record's were, and always when the record is new. |
| NodeMapGraphs.MergeTwiceAddsNoPairs | core/src/flattening/node_map.rs:226-229 | Merging the same record twice adds no property or reverse-property pair the second time. |
| NodeMapGraphs.MergeWith | core/src/flattening/node_map.rs:191-198 | The identifier set after `merge_with` is the union of both graphs' identifier sets, and records stay keyed by their own identifier. |
| NodeMapGraphs.MergeInOrderIsMergeSome | core/src/flattening/node_map.rs:194-198 | Calling `merge_node` for the records of a duplicate-free enumeration, one after the other, gives the pointwise merge of exactly those records. |
| NodeMapGraphs.MergeWithAnyOrder | core/src/flattening/node_map.rs:191-198 | Every enumeration order of the other graph's records gives the same result as `merge_with`. |
| NodeMaps.GraphOf | core/src/flattening/node_map.rs:39-44 | `graph(None)` is the default graph. `graph(Some(id))` is present exactly when `id` is a named graph, and it is then that graph. |
| NodeMaps.PutGraph | core/src/flattening/node_map.rs:46-51 | Writing through `graph_mut` changes the addressed graph only. Every other graph and the set of named graphs stay as they were. |
| NodeMaps.DeclareGraph | core/src/flattening/node_map.rs:53-57 | Afterwards the named graph exists. An existing one is kept, a new one is empty, and nothing else changes. |
| NodeMaps.DeclareGraphIdempotent | core/src/flattening/node_map.rs:53-57 | Declaring a graph twice is declaring it once. |
| NodeMaps.GraphPresentIffDeclared | core/src/flattening/node_map.rs:39-57 | After any series of `declare_graph` calls, the default graph is present. A named graph is present exactly when it existed before or was declared, and an existing graph is never replaced. |
| NodeMaps.MergeGraphs | core/src/flattening/node_map.rs:62-70 | Folding named graphs into an accumulator in any order yields the union of all their identifier sets, keyed consistently. |
| NodeMaps.Merge | core/src/flattening/node_map.rs:59-70 | `merge` yields exactly the identifiers of the default graph and of every named graph, whatever the fold order. |
| NodeMaps.Iter | core/src/flattening/node_map.rs:72-97 | Iteration yields the default graph first under `None`, then each named graph exactly once under `Some` of its identifier, paired with that graph. |
| Flattening.DeclareStep | core/src/flattening/node_map.rs:326-339 | The node is declared under its namespace-assigned id in the active graph. It fails exactly when `declare_node` reports a conflict, with that error. Otherwise the record holds the index `declare_node` leaves, and its types are replaced by the assigned ids of the node's types. The namespace afterwards keeps the id's assignment, and under a generator of fresh blank identifiers it stays injective. |
| Flattening.DeclareUnseen | core/src/flattening/node_map.rs:326-332 | Declaring an identified, untyped node not yet in the graph adds exactly a bare record with that id and index. |
| Flattening.GraphStep | core/src/flattening/node_map.rs:341-359 | For a node with a graph: the named graph keyed by the node's id is declared. The record's graph set afterwards contains its old members together with the flattened members. Every object of the graph flattens, described in full, into a member of the record's graph set, with the node's id as the active graph. It succeeds when no node inside the graph carries an index. |
| Flattening.FlattenGraph | core/src/flattening/node_map.rs:341-359 | The graph's objects are flattened into the named graph of the node's id, which exists afterwards. Both directions hold. Every flattened member is the flattening of one of the objects. Every object has a flattening, described in full, among the outputs and in the record's graph set. It succeeds when no node among the objects carries an index. |
| Flattening.AddGraphContent | core/src/flattening/node_map.rs:350-358 | The record ends up with a graph set: its old members together with the new ones. The map only grows, and soundness is kept when the new members refer to records of the node's graph. |
| Flattening.ExtendSeq | core/src/flattening/node_map.rs:294-305 | A list's items are flattened in order into a list of the same length. Each item corresponds to its source. Each node item is described in full: its id is the one the namespace stands for, and its record holds everything flattening it put there. It succeeds when no node inside the items carries an index. Under a generator of fresh blank identifiers the namespace stays injective. |
| Flattening.Extend | core/src/flattening/node_map.rs:280-317 | A value is copied with its index and leaves the map unchanged. A list keeps its index, length and order. A node becomes an id-only reference, without index, to its assigned id. That id is the IRI, the blank label's renaming, or a generator output, and its record is described in full. The map only grows and stays sound. Under a generator of fresh blank identifiers the namespace stays injective. The walk succeeds when no node inside the element carries an index. |
| Flattening.ExtendNode | core/src/flattening/node_map.rs:319-434 | A conflict in declaring the node is returned unchanged, and a node with no index on it or anywhere inside succeeds. On success it returns the assigned id. That id is the IRI, the blank label's renaming in the final namespace, or a generator output. A supplied index is on the record. The record is described in full, recursively. There are the graph's members, every included node's record, the values and node references under every property, and the forward edge on every reverse subject. Each nested node is described in the same way under its own id. Under a generator of fresh blank identifiers the namespace stays injective. |
| Flattening.NestedStep | core/src/flattening/node_map.rs:341-371 | Handles the graph content, then the included nodes, which are flattened into the same active graph. Afterwards every graph object has a member of the record's graph set as its full flattening. Every included node has an id the namespace stands for, and a record described in full. It succeeds when no node nested in it carries an index. |
| Flattening.EdgesStep | core/src/flattening/node_map.rs:373-410 | The properties come first. Every object of every property has a full flattening listed under that property in the record. Then each reverse property becomes forward edges. Every subject has an id the namespace stands for, a record described in full, and the edge to the node. It succeeds when no node inside carries an index. |
| Flattening.BareNode | core/src/flattening/node_map.rs:326-339 | A node without graph, included nodes or properties is flattened by the declaration alone. |
| Flattening.ExtendIndexed | core/src/flattening/node_map.rs:362-369 | An indexed node is flattened under its namespace-assigned id. That id is the IRI, the blank label's renaming, or a generator output, and its record is described in full in the active graph. It succeeds when no node on it or inside it carries an index. |
| Flattening.IncludedStep | core/src/flattening/node_map.rs:361-371 | Included nodes are flattened into the active graph, one id per node. Each id is the one the namespace stands for, with a record described in full. Identified nodes keep their ids. It succeeds when no node among them carries an index. |
| Flattening.ExtendIncluded | core/src/flattening/node_map.rs:362-370 | The included nodes are flattened one by one, one id per node. Each id is the one the namespace stands for, and its record in the active graph is described in full. Identified nodes keep their ids. It succeeds when no node among them carries an index. |
| Flattening.PropertyStep | core/src/flattening/node_map.rs:374-385 | The property's objects are flattened in order, one output per object, each corresponding to its source. All outputs end up listed under the property in the node's record. Every object has a full flattening among them: a value's copy, a list's flattened items, a reference to a described node. It succeeds when no node among the objects carries an index. |
| Flattening.ExtendProperties | core/src/flattening/node_map.rs:373-386 | Every property of the node is present in the node's record afterwards. Every object of every property has a full flattening listed under that property. It succeeds when no node among the objects carries an index. |
| Flattening.ExtendSubjects | core/src/flattening/node_map.rs:389-410 | Each subject is flattened into the active graph, one id per subject. Each id is the one the namespace stands for, and its record is described in full. The record lists the edge property to a reference to the current node. Identified subjects keep their ids. It succeeds when no node among them carries an index. |
| Flattening.AddEdge | core/src/flattening/node_map.rs:400-409 | Installing `property -> node(id)` on the subject's record only grows the map, makes the edge present, and changes no other record. |
| Flattening.ExtendReverse | core/src/flattening/node_map.rs:388-411 | For every reverse property and every subject, the subject gets an id the namespace stands for, with a record described in full. That record carries the forward edge to the node. The node itself gets no reverse property. It succeeds when no node among them carries an index. |
| Flattening.IdentifiedSubjects | core/src/flattening/node_map.rs:388-410 | For every reverse property, every subject identified by an IRI or invalid reference carries the forward edge to the node under its own id. |
| Flattening.ExtendSeqAppend | core/src/flattening/node_map.rs:297-299 | Flattening `a + b` is flattening `a`, then `b` from the resulting state, with the outputs joined. An error in `a` stops the walk before `b`. |
| Descriptions.FlattenedPersists | core/src/flattening/node_map.rs:280-317 | A full flattening of an object stays a full flattening as the walk goes on: the namespace only extends and the node map only grows. |
| Descriptions.DescribedPersists | core/src/flattening/node_map.rs:319-434 | A node's full description stays true as the walk goes on, including its graph content, included nodes, listed property values and reverse edges. |
| Descriptions.FlattenedCorresponds | core/src/flattening/node_map.rs:280-317 | A full flattening corresponds to its source object: the same kind, index and list length, value copies and node references. |
| Descriptions.DescribedListsKnown | core/src/flattening/node_map.rs:373-386 | A node described in full lists, under each property, the copy of every value object and a reference to every identified node object. |
| Flattening.DocumentIndexedTwice | core/src/flattening/node_map.rs:266-276 | For every document: if two top-level node objects name the same IRI with two different indexes, `generate_node_map` fails. |
| Flattening.IndexedTwice | core/src/flattening/node_map.rs:294-305 | The same, for the walk over any sequence of objects in any graph: two node objects with the same IRI and different indexes make it fail. |
| Flattening.StoredIndexConflicts | core/src/flattening/node_map.rs:167-176 | Once a node's record carries an index, a later node object with the same IRI and another index makes the walk fail. |
| Flattening.IndexRecorded | core/src/flattening/node_map.rs:319-332 | After a node object with an IRI and an index is flattened, that IRI's record carries that index. |
| Flattening.GenerateNodeMap | core/src/flattening/node_map.rs:266-276 | Starting from an empty map and a fresh namespace, either some conflict is reported, or the node map is sound and keyed by identifier. In the latter case there is a default-graph record for every identified top-level node. The whole document has a full flattening into the map under a namespace that, given a generator of fresh blank identifiers, is injective and issued only generator outputs. A document in which no node carries an index always succeeds. |
| Flattening.DocumentDistinctNodes | core/src/flattening/node_map.rs:266-276 | Given a generator of fresh blank identifiers, two top-level node objects with different explicit identifiers end up as two different records of the default graph, whether the identifiers are IRIs or blank labels. |
| Flattening.DistinctIdsDistinctRefs | core/src/flattening/node_map.rs:306-313 | In any state reached under a generator of fresh blank identifiers, two node objects with different explicit identifiers flatten to references to two different records of the graph. |
| Flattening.TopLevelNodesRecorded | core/src/flattening/node_map.rs:272-274 | Each top-level node identified by an IRI or invalid reference ends up with a record in the default graph. |
| Scenarios.IndexScenario | core/src/flattening/node_map.rs:162-189 | Declaring `A` with index "1" and then again with "1" or with no index changes nothing. Declaring it again with "2" fails with `ConflictingIndexes(A, "1", "2")`. |
| Scenarios.ConflictingDocument | core/src/flattening/node_map.rs:266-276 | A document mentioning `A` with index "1" and then with "2" makes `generate_node_map` fail with `ConflictingIndexes(A, "1", "2")`. |
| Scenarios.ReverseScenario | core/src/flattening/node_map.rs:388-410 | A document with node `A` whose reverse property `knows` has subject `B` gives a default graph of records `A` and `B`. `B` has the forward property `knows -> A`, `A` has no reverse property, and there is no named graph. |
| Scenarios.ObjectListed | core/src/flattening/node_map.rs:373-386 | After an identified node is flattened, its record lists, under each property, the copy of every value object and a reference to every identified node object. |
| Scenarios.KnowsListed | core/src/flattening/node_map.rs:373-386 | From any state, flattening node `A` with property `knows` holding node `B` succeeds, and `A`'s record lists `knows -> node(B)`. |
| Scenarios.ForwardScenario | core/src/flattening/node_map.rs:266-276 | A document holding `A knows B` flattens without error into a default graph where `A` has `knows` listing a reference to `B`. |

## Left out

- `serializer/src/expanded/default_graph.rs`: an adapter over external serialization traits with no logic of its own; it is not part of this model.
- `Version`'s `TryFrom<f32>` and `TryFrom<f64>`: these compare floating-point numbers.
- `Version`'s serde implementations and its unchecked `json_syntax::Number` constructors: these are external serialization glue.
- Language-tag parsing: a tag is kept as the given text, since the lenient parser always yields a tag.
- `Direction::try_from`: an external parser, passed to `TryFromJson` as a parameter.
- `Namespace`: its source is not part of this model. It is modelled from how flattening uses it:
  - memoised renaming of blank labels through an injected generator `nat -> Ref`;
  - IRIs and invalid references kept;
  - a fresh identifier for a node without one.
- `extend_unique`, `insert_all_unique` and `insert_unique`: their source is not part of this model either. They are modelled as "append the (property, value) pair unless present".
- Hash-map iteration order is not modelled. Where it matters, the order is a parameter: the `order` of `Merge`, `MergeGraphs` and `Iter`, and the sequences enumerating a node's graph, included nodes and property maps.
- `Derivative`, `Debug`, the metadata parameter `M` and `Stripped` metadata are left out. Flattened graph content is a set compared by structural equality.
- The commented-out alternative reverse-property code (node_map.rs:412-430) is not modelled.
- Stack depth of the recursion is not modelled.
- `get_mut` and `IntoIterator` for `NodeMapGraph` are not modelled. Writes go through `SetRecord`, and `MergeWithInOrder` takes an explicit visiting order.
- NodeMaps.Merge: order independence is stated for the identifier set only. The doc comment of `merge` (node_map.rs:59-61) leaves the fold order undefined, and `merge_node` overwrites the index, graph and included fields with the last record merged, so the rest of the content can depend on that order.
- Flattening.GraphStep: states that the old members together with the flattened members are contained in the record's graph set, rather than equal to it. When the active graph is the node's own named graph, members flattened into it can add to the same record.
- Flattening.ExtendNode: does not state the record's types after the walk. Flattening nested content may declare the same node again and replace its types; `DeclareStep` states them at the point of declaration.
- Descriptions.Flattened: a node without an identifier is only said to get one the generator has already produced, not one different from every other such node. The walk draws a new generator output for each, but the description does not record which call produced it.
- Flattening.Extend: the "Grows" relation keeps every record's index, graph content and property values, but not its types, for the same reason.

=== FILE: descriptions.dfy ===
/**
  What flattening an expanded object leaves behind, stated independently of
  the walk that does it: in a state (namespace and node map), the flattened
  form of an object, and the records that the node objects inside it, at any
  depth, must have. Everything stated here survives further flattening: the
  namespace keeps its renamings and the node map only grows.
 */
module Descriptions {
  import opened Wrappers
  import opened Namespaces
  import opened Objects
  import opened NodeMaps
  import opened Invariants

  /** The state threaded through the walk: the namespace and the node map. */
  datatype State = State(ns: Namespace, nm: NodeMap)

  /** Renamings are kept and the node map only grows. */
  ghost predicate Advances(a: State, b: State) {
    Extends(a.ns, b.ns) && Grows(a.nm, b.nm)
  }

  lemma AdvancesTransitive(a: State, b: State, c: State)
    requires Advances(a, b) && Advances(b, c)
    ensures Advances(a, c)
  {
    ExtendsTransitive(a.ns, b.ns, c.ns);
    GrowsTransitive(a.nm, b.nm, c.nm);
  }

  /** The record of `subject` in graph `active` lists `x` under `property`. */
  ghost predicate Lists(nm: NodeMap, active: Option<Ref>, subject: Ref, property: Ref, x: IndexedFlat) {
    && Holds(nm, active, subject)
    && property in RecordOf(nm, active, subject).properties
    && x in RecordOf(nm, active, subject).properties[property]
  }

  lemma ListedPersists(a: NodeMap, b: NodeMap, active: Option<Ref>, subject: Ref, property: Ref, x: IndexedFlat)
    requires Grows(a, b) && Lists(a, active, subject, property, x)
    ensures Lists(b, active, subject, property, x)
  {
    GrowsKeeps(a, b, active, subject);
    var xs := RecordOf(a, active, subject).properties[property];
    var ys := RecordOf(b, active, subject).properties[property];
    var i :| 0 <= i < |xs| && xs[i] == x;
    assert xs == ys[..|xs|];
    assert ys[i] == x;
  }

  /** The record of `subject` in graph `active` has `property -> node(target)`. */
  ghost predicate HasEdge(nm: NodeMap, active: Option<Ref>, subject: Ref, property: Ref, target: Ref) {
    Lists(nm, active, subject, property, RefTo(target))
  }

  lemma EdgePersists(a: NodeMap, b: NodeMap, active: Option<Ref>, subject: Ref, property: Ref, target: Ref)
    requires Grows(a, b) && HasEdge(a, active, subject, property, target)
    ensures HasEdge(b, active, subject, property, target)
  {
    ListedPersists(a, b, active, subject, property, RefTo(target));
  }

  /** A node with an identifier that is not a blank node label: the namespace keeps it. */
  predicate Identified(n: Node) {
    n.id.Some? && !n.id.value.Blank?
  }

  /**
    The flattened form of `o` when it does not depend on the walk: a value is
    copied with its index, and a node identified by an IRI or an invalid
    reference becomes a reference to that identifier. Lists and nodes with a
    blank or no identifier have none.
   */
  function Known(o: IndexedObject): Option<IndexedFlat> {
    match o.inner
    case ValueObject(v) => Some(IndexedFlat(FlatValue(v), o.index))
    case ListObject(_) => None
    case NodeObject(n) => if Identified(n) then Some(RefTo(n.id.value)) else None
  }

  /** Every flattening of `o` is its known form, when it has one. */
  lemma KnownCorresponds(o: IndexedObject, f: IndexedFlat)
    requires Corresponds(o, f) && Known(o).Some?
    ensures f == Known(o).value
  {
  }

  /**
    `f` is the flattening of `o` into graph `active` in state `st`: a value is
    copied with its index; a list keeps its index, length and order, item by
    item; a node becomes an id-only reference without index to the identifier
    the namespace stands for it, and that node is described by the node map.
   */
  ghost predicate Flattened(gen: Generator, st: State, active: Option<Ref>, o: IndexedObject, f: IndexedFlat)
    decreases o, 3
  {
    match o.inner
    case ValueObject(v) => f == IndexedFlat(FlatValue(v), o.index)
    case ListObject(items) =>
      && f.index == o.index
      && f.inner.FlatList?
      && |f.inner.items| == |items|
      && forall i :: 0 <= i < |items| ==> Flattened(gen, st, active, items[i], f.inner.items[i])
    case NodeObject(n) =>
      && f.index.None?
      && f.inner.FlatRef?
      && Names(gen, st.ns, n.id, f.inner.id)
      && Described(gen, st, active, n, f.inner.id)
  }

  /**
    The node map holds everything flattening `node` as `id` into graph
    `active` stores: the record of `id`, the node's graph content, its included
    nodes, its properties with their objects, and its reverse properties as
    forward edges of their subjects.
   */
  ghost predicate Described(gen: Generator, st: State, active: Option<Ref>, node: Node, id: Ref)
    decreases node, 2
  {
    && Holds(st.nm, active, id)
    && GraphDescribed(gen, st, active, node, id)
    && IncludedDescribed(gen, st, active, node)
    && PropertiesDescribed(gen, st, active, node, id)
    && ReverseDescribed(gen, st, active, node, id)
  }

  /** A node with graph content has it flattened into the named graph `id`. */
  ghost predicate GraphDescribed(gen: Generator, st: State, active: Option<Ref>, node: Node, id: Ref)
    decreases node, 1
  {
    node.graph.Some? ==> GraphHolds(gen, st, active, id, node.graph.value.items)
  }

  /**
    The named graph `id` exists, the record of `id` in graph `active` has graph
    content, and that content holds a flattening into graph `id` of each of
    `items`.
   */
  ghost predicate GraphHolds(gen: Generator, st: State, active: Option<Ref>, id: Ref, items: seq<IndexedObject>)
    decreases items, 0
  {
    && Holds(st.nm, active, id)
    && id in st.nm.named
    && RecordOf(st.nm, active, id).graph.Some?
    && forall k :: 0 <= k < |items| ==> FlattensInto(gen, st, Some(id), items[k], GraphContent(RecordOf(st.nm, active, id)))
  }

  /** Some flattening of `o` into graph `active` is among `content`. */
  ghost predicate FlattensInto(gen: Generator, st: State, active: Option<Ref>, o: IndexedObject, content: set<IndexedFlat>)
    decreases o, 4
  {
    exists x :: x in content && Flattened(gen, st, active, o, x)
  }

  /** Some flattening of `o` into graph `active` is listed in `values`. */
  ghost predicate FlattensAmong(gen: Generator, st: State, active: Option<Ref>, o: IndexedObject, values: seq<IndexedFlat>)
    decreases o, 4
  {
    exists x :: x in values && Flattened(gen, st, active, o, x)
  }

  /** Each included node is described in graph `active`, under the identifier the namespace stands for it. */
  ghost predicate IncludedDescribed(gen: Generator, st: State, active: Option<Ref>, node: Node)
    decreases node, 1
  {
    node.included.Some? ==>
      forall k :: 0 <= k < |node.included.value.items| ==> Mentioned(gen, st, active, node.included.value.items[k])
  }

  /** `n` is described in graph `active` under some identifier the namespace stands for it. */
  ghost predicate Mentioned(gen: Generator, st: State, active: Option<Ref>, n: IndexedNode)
    decreases n, 2
  {
    exists nid :: Gives(gen, st, active, n, nid)
  }

  /** The namespace stands `nid` for `n`, and `n` is described as `nid` in graph `active`. */
  ghost predicate Gives(gen: Generator, st: State, active: Option<Ref>, n: IndexedNode, nid: Ref)
    decreases n, 1
  {
    Names(gen, st.ns, n.inner.id, nid) && Described(gen, st, active, n.inner, nid)
  }

  /** Each property of the node is a key of the record of `id`, listing a flattening of each of its objects. */
  ghost predicate PropertiesDescribed(gen: Generator, st: State, active: Option<Ref>, node: Node, id: Ref)
    decreases node, 1
  {
    forall i :: 0 <= i < |node.properties| ==>
      ObjectsDescribed(gen, st, active, id, node.properties[i].property, node.properties[i].values)
  }

  /** `property` is a key of the record of `id`, and its list holds a flattening of each of `objects`. */
  ghost predicate ObjectsDescribed(gen: Generator, st: State, active: Option<Ref>, id: Ref, property: Ref, objects: seq<IndexedObject>)
    decreases objects, 0
  {
    && Holds(st.nm, active, id)
    && property in RecordOf(st.nm, active, id).properties
    && forall j :: 0 <= j < |objects| ==> FlattensAmong(gen, st, active, objects[j], RecordOf(st.nm, active, id).properties[property])
  }

  /** Each subject of each reverse property is described and has the forward edge to `id`. */
  ghost predicate ReverseDescribed(gen: Generator, st: State, active: Option<Ref>, node: Node, id: Ref)
    decreases node, 1
  {
    forall i :: 0 <= i < |node.reverseProperties| ==>
      SubjectsDescribed(gen, st, active, node.reverseProperties[i].values, node.reverseProperties[i].property, id)
  }

  ghost predicate SubjectsDescribed(gen: Generator, st: State, active: Option<Ref>, subjects: seq<IndexedNode>, property: Ref, id: Ref)
    decreases subjects, 1
  {
    forall k :: 0 <= k < |subjects| ==> SubjectOf(gen, st, active, subjects[k], property, id)
  }

  /** `s` is described under some identifier whose record lists `property -> node(id)`. */
  ghost predicate SubjectOf(gen: Generator, st: State, active: Option<Ref>, s: IndexedNode, property: Ref, id: Ref)
    decreases s, 2
  {
    exists sid :: Gives(gen, st, active, s, sid) && HasEdge(st.nm, active, sid, property, id)
  }

  lemma {:induction false} FlattenedPersists(gen: Generator, a: State, b: State, active: Option<Ref>, o: IndexedObject, f: IndexedFlat)
    requires Advances(a, b) && Flattened(gen, a, active, o, f)
    ensures Flattened(gen, b, active, o, f)
    decreases o, 3
  {
    match o.inner
    case ValueObject(_) =>
    case ListObject(items) =>
      forall i | 0 <= i < |items|
        ensures Flattened(gen, b, active, items[i], f.inner.items[i])
      {
        FlattenedPersists(gen, a, b, active, items[i], f.inner.items[i]);
      }
    case NodeObject(n) =>
      NamesPersist(gen, a.ns, b.ns, n.id, f.inner.id);
      DescribedPersists(gen, a, b, active, n, f.inner.id);
  }

  lemma {:induction false} DescribedPersists(gen: Generator, a: State, b: State, active: Option<Ref>, node: Node, id: Ref)
    requires Advances(a, b) && Described(gen, a, active, node, id)
    ensures Described(gen, b, active, node, id)
    decreases node, 2
  {
    GrowsKeeps(a.nm, b.nm, active, id);
    if node.graph.Some? {
      GraphHoldsPersists(gen, a, b, active, id, node.graph.value.items);
    }
    IncludedPersists(gen, a, b, active, node);
    forall i | 0 <= i < |node.properties|
      ensures ObjectsDescribed(gen, b, active, id, node.properties[i].property, node.properties[i].values)
    {
      ObjectsPersist(gen, a, b, active, id, node.properties[i].property, node.properties[i].values);
    }
    forall i | 0 <= i < |node.reverseProperties|
      ensures SubjectsDescribed(gen, b, active, node.reverseProperties[i].values, node.reverseProperties[i].property, id)
    {
      SubjectsPersist(gen, a, b, active, node.reverseProperties[i].values, node.reverseProperties[i].property, id);
    }
  }

  lemma GraphDescribedPersists(gen: Generator, a: State, b: State, active: Option<Ref>, node: Node, id: Ref)
    requires Advances(a, b) && GraphDescribed(gen, a, active, node, id)
    ensures GraphDescribed(gen, b, active, node, id)
  {
    if node.graph.Some? {
      GraphHoldsPersists(gen, a, b, active, id, node.graph.value.items);
    }
  }

  lemma {:induction false} GraphHoldsPersists(gen: Generator, a: State, b: State, active: Option<Ref>, id: Ref, items: seq<IndexedObject>)
    requires Advances(a, b) && GraphHolds(gen, a, active, id, items)
    ensures GraphHolds(gen, b, active, id, items)
    decreases items, 0
  {
    GrowsKeeps(a.nm, b.nm, active, id);
    assert id in b.nm.named;
    forall k | 0 <= k < |items|
      ensures FlattensInto(gen, b, Some(id), items[k], GraphContent(RecordOf(b.nm, active, id)))
    {
      var x :| x in GraphContent(RecordOf(a.nm, active, id)) && Flattened(gen, a, Some(id), items[k], x);
      FlattenedPersists(gen, a, b, Some(id), items[k], x);
      assert x in GraphContent(RecordOf(b.nm, active, id));
    }
  }

  lemma {:induction false} IncludedPersists(gen: Generator, a: State, b: State, active: Option<Ref>, node: Node)
    requires Advances(a, b) && IncludedDescribed(gen, a, active, node)
    ensures IncludedDescribed(gen, b, active, node)
    decreases node, 1
  {
    if node.included.Some? {
      forall k | 0 <= k < |node.included.value.items|
        ensures Mentioned(gen, b, active, node.included.value.items[k])
      {
        var n := node.included.value.items[k];
        assert Mentioned(gen, a, active, n);
        var nid :| Gives(gen, a, active, n, nid);
        GivesPersists(gen, a, b, active, n, nid);
      }
    }
  }

  lemma {:induction false} GivesPersists(gen: Generator, a: State, b: State, active: Option<Ref>, n: IndexedNode, nid: Ref)
    requires Advances(a, b) && Gives(gen, a, active, n, nid)
    ensures Gives(gen, b, active, n, nid)
    decreases n, 1
  {
    NamesPersist(gen, a.ns, b.ns, n.inner.id, nid);
    DescribedPersists(gen, a, b, active, n.inner, nid);
  }

  lemma {:induction false} ObjectsPersist(gen: Generator, a: State, b: State, active: Option<Ref>, id: Ref, property: Ref, objects: seq<IndexedObject>)
    requires Advances(a, b) && ObjectsDescribed(gen, a, active, id, property, objects)
    ensures ObjectsDescribed(gen, b, active, id, property, objects)
    decreases objects, 0
  {
    GrowsKeeps(a.nm, b.nm, active, id);
    assert property in RecordOf(b.nm, active, id).properties;
    forall j | 0 <= j < |objects|
      ensures FlattensAmong(gen, b, active, objects[j], RecordOf(b.nm, active, id).properties[property])
    {
      var x :| x in RecordOf(a.nm, active, id).properties[property] && Flattened(gen, a, active, objects[j], x);
      ListedPersists(a.nm, b.nm, active, id, property, x);
      FlattenedPersists(gen, a, b, active, objects[j], x);
      assert x in RecordOf(b.nm, active, id).properties[property];
    }
  }

  lemma {:induction false} SubjectsPersist(gen: Generator, a: State, b: State, active: Option<Ref>, subjects: seq<IndexedNode>, property: Ref, id: Ref)
    requires Advances(a, b) && SubjectsDescribed(gen, a, active, subjects, property, id)
    ensures SubjectsDescribed(gen, b, active, subjects, property, id)
    decreases subjects, 1
  {
    forall k | 0 <= k < |subjects|
      ensures SubjectOf(gen, b, active, subjects[k], property, id)
    {
      assert SubjectOf(gen, a, active, subjects[k], property, id);
      var sid :| Gives(gen, a, active, subjects[k], sid) && HasEdge(a.nm, active, sid, property, id);
      GivesPersists(gen, a, b, active, subjects[k], sid);
      EdgePersists(a.nm, b.nm, active, sid, property, id);
    }
  }

  /** A flattening in the sense above is a flattening in the structural sense. */
  lemma {:induction false} FlattenedCorresponds(gen: Generator, st: State, active: Option<Ref>, o: IndexedObject, f: IndexedFlat)
    requires Flattened(gen, st, active, o, f)
    ensures Corresponds(o, f)
    decreases o
  {
    match o.inner
    case ValueObject(_) =>
    case ListObject(items) =>
      forall i | 0 <= i < |items|
        ensures Corresponds(items[i], f.inner.items[i])
      {
        FlattenedCorresponds(gen, st, active, items[i], f.inner.items[i]);
      }
    case NodeObject(n) =>
  }

  /** A property whose objects are described lists the known form of each object that has one. */
  lemma KnownListed(gen: Generator, st: State, active: Option<Ref>, id: Ref, property: Ref, objects: seq<IndexedObject>, j: nat)
    requires ObjectsDescribed(gen, st, active, id, property, objects)
    requires j < |objects| && Known(objects[j]).Some?
    ensures Lists(st.nm, active, id, property, Known(objects[j]).value)
  {
    assert FlattensAmong(gen, st, active, objects[j], RecordOf(st.nm, active, id).properties[property]);
    var x :| x in RecordOf(st.nm, active, id).properties[property] && Flattened(gen, st, active, objects[j], x);
    FlattenedCorresponds(gen, st, active, objects[j], x);
    KnownCorresponds(objects[j], x);
  }

  /** A described node's record lists, under each of its properties, the known form of each object that has one. */
  lemma DescribedListsKnown(gen: Generator, st: State, active: Option<Ref>, node: Node, id: Ref, i: nat, j: nat)
    requires Described(gen, st, active, node, id)
    requires i < |node.properties| && j < |node.properties[i].values| && Known(node.properties[i].values[j]).Some?
    ensures Lists(st.nm, active, id, node.properties[i].property, Known(node.properties[i].values[j]).value)
  {
    assert PropertiesDescribed(gen, st, active, node, id);
    KnownListed(gen, st, active, id, node.properties[i].property, node.properties[i].values, j);
  }
}

=== FILE: flattening.dfy ===
/**
  Node map generation (section 7.2 of the JSON-LD 1.1 Processing Algorithms
  and API): a depth-first walk over an expanded document that gives every
  node its identifier through the namespace, stores one record per identifier
  in the graph being filled, flattens nested graph content into the named
  graph of its node, and turns reverse properties into forward edges of their
  subjects. The only error is an index conflict, which ends the walk.
 */
module Flattening {
  import opened Wrappers
  import opened Namespaces
  import opened Objects
  import opened UniqueInsert
  import opened NodeMapGraphs
  import opened NodeMaps
  import opened Invariants
  import opened Descriptions

  /** What a step of the walk produces: the new state and a result. */
  datatype Step<T> = Step(state: State, out: T)

  /** The two indexes an error of the walk reports for one node differ. */
  predicate IndexesDiffer(e: ConflictingIndexes) {
    e.definedIndex != e.conflictingIndex
  }

  lemma EdgesCons(nm: NodeMap, active: Option<Ref>, head: Ref, rest: seq<Ref>, property: Ref, target: Ref)
    requires HasEdge(nm, active, head, property, target)
    requires forall s :: s in rest ==> HasEdge(nm, active, s, property, target)
    ensures forall s :: s in [head] + rest ==> HasEdge(nm, active, s, property, target)
  {
  }

  lemma AllEdgesPersist(a: NodeMap, b: NodeMap, active: Option<Ref>, subjects: seq<Ref>, property: Ref, target: Ref)
    requires Grows(a, b)
    requires forall s :: s in subjects ==> HasEdge(a, active, s, property, target)
    ensures forall s :: s in subjects ==> HasEdge(b, active, s, property, target)
  {
    forall s | s in subjects ensures HasEdge(b, active, s, property, target) {
      EdgePersists(a, b, active, s, property, target);
    }
  }

  /** `out` holds, item by item, a flattening of `items` into graph `active`. */
  ghost predicate AllFlattened(gen: Generator, st: State, active: Option<Ref>, items: seq<IndexedObject>, out: seq<IndexedFlat>) {
    && |out| == |items|
    && forall i :: 0 <= i < |items| ==> Flattened(gen, st, active, items[i], out[i])
  }

  lemma AllFlattenedPersist(gen: Generator, a: State, b: State, active: Option<Ref>, items: seq<IndexedObject>, out: seq<IndexedFlat>)
    requires Advances(a, b) && AllFlattened(gen, a, active, items, out)
    ensures AllFlattened(gen, b, active, items, out)
  {
    forall i | 0 <= i < |items|
      ensures Flattened(gen, b, active, items[i], out[i])
    {
      FlattenedPersists(gen, a, b, active, items[i], out[i]);
    }
  }

  lemma AllFlattenedCons(gen: Generator, a: State, b: State, active: Option<Ref>, items: seq<IndexedObject>, head: IndexedFlat, rest: seq<IndexedFlat>)
    requires |items| > 0 && Advances(a, b) && Flattened(gen, a, active, items[0], head)
    requires AllFlattened(gen, b, active, items[1..], rest)
    ensures AllFlattened(gen, b, active, items, [head] + rest)
  {
    FlattenedPersists(gen, a, b, active, items[0], head);
    var out := [head] + rest;
    assert forall i :: 1 <= i < |items| ==> out[i] == rest[i - 1] && items[i] == items[1..][i - 1];
  }

  /** Every object of `items` has a flattening in `content` when all of `out` is in it. */
  lemma FlattensIntoAll(gen: Generator, st: State, active: Option<Ref>, items: seq<IndexedObject>, out: seq<IndexedFlat>, content: set<IndexedFlat>)
    requires AllFlattened(gen, st, active, items, out)
    requires forall x :: x in out ==> x in content
    ensures forall i :: 0 <= i < |items| ==> FlattensInto(gen, st, active, items[i], content)
  {
    forall i | 0 <= i < |items|
      ensures FlattensInto(gen, st, active, items[i], content)
    {
      assert out[i] in out;
    }
  }

  /** `property` of the record of `id` lists every member of `out`, a flattening of `objects`. */
  lemma ObjectsFrom(gen: Generator, st: State, active: Option<Ref>, id: Ref, property: Ref, objects: seq<IndexedObject>, out: seq<IndexedFlat>)
    requires Holds(st.nm, active, id) && property in RecordOf(st.nm, active, id).properties
    requires AllFlattened(gen, st, active, objects, out)
    requires forall x :: x in out ==> x in RecordOf(st.nm, active, id).properties[property]
    ensures ObjectsDescribed(gen, st, active, id, property, objects)
  {
    forall j | 0 <= j < |objects|
      ensures FlattensAmong(gen, st, active, objects[j], RecordOf(st.nm, active, id).properties[property])
    {
      assert out[j] in out;
    }
  }

  /** Each of `nodes` is described under the identifier at the same position of `ids`. */
  ghost predicate AllGive(gen: Generator, st: State, active: Option<Ref>, nodes: seq<IndexedNode>, ids: seq<Ref>) {
    && |ids| == |nodes|
    && forall k :: 0 <= k < |nodes| ==> Gives(gen, st, active, nodes[k], ids[k])
  }

  lemma AllGivePersist(gen: Generator, a: State, b: State, active: Option<Ref>, nodes: seq<IndexedNode>, ids: seq<Ref>)
    requires Advances(a, b) && AllGive(gen, a, active, nodes, ids)
    ensures AllGive(gen, b, active, nodes, ids)
  {
    forall k | 0 <= k < |nodes|
      ensures Gives(gen, b, active, nodes[k], ids[k])
    {
      GivesPersists(gen, a, b, active, nodes[k], ids[k]);
    }
  }

  lemma AllGiveCons(gen: Generator, a: State, b: State, active: Option<Ref>, nodes: seq<IndexedNode>, head: Ref, rest: seq<Ref>)
    requires |nodes| > 0 && Advances(a, b) && Gives(gen, a, active, nodes[0], head)
    requires AllGive(gen, b, active, nodes[1..], rest)
    ensures AllGive(gen, b, active, nodes, [head] + rest)
  {
    GivesPersists(gen, a, b, active, nodes[0], head);
    var ids := [head] + rest;
    assert forall k :: 1 <= k < |nodes| ==> ids[k] == rest[k - 1] && nodes[k] == nodes[1..][k - 1];
  }

  /**
    The first step for a node: its identifier is assigned, it is declared in
    the graph being filled with the given index, and its record's types are
    replaced by the identifiers assigned to the node's types.
   */
  function DeclareStep(gen: Generator, st: State, node: Node, index: Option<string>, active: Option<Ref>)
    : (r: Result<Step<Ref>, ConflictingIndexes>)
    requires GraphOf(st.nm, active).Some?
    ensures r.Err? <==> Conflicts(GraphOf(st.nm, active).value, Assign(gen, st.ns, node.id).1, index)
    ensures r.Err? ==> IndexesDiffer(r.error)
    ensures r.Err? ==>
      var id := Assign(gen, st.ns, node.id).1;
      r.error == ConflictingIndexes(id, GraphOf(st.nm, active).value.nodes[id].index.value, index.value)
    ensures r.Ok? ==> r.value.out == Assign(gen, st.ns, node.id).1
    ensures r.Ok? ==> Advances(st, r.value.state)
    ensures r.Ok? ==> Extends(Assign(gen, st.ns, node.id).0, r.value.state.ns)
    ensures r.Ok? ==> Holds(r.value.state.nm, active, r.value.out)
    ensures r.Ok? ==>
      var id := r.value.out;
      RecordOf(r.value.state.nm, active, id).index
        == if Holds(st.nm, active, id) && RecordOf(st.nm, active, id).index.Some? then RecordOf(st.nm, active, id).index else index
    ensures r.Ok? ==> RecordOf(r.value.state.nm, active, r.value.out).types
                      == AssignAll(gen, Assign(gen, st.ns, node.id).0, node.types).1
    ensures r.Ok? && Sound(st.nm) ==> Sound(r.value.state.nm)
    ensures r.Ok? ==> KeepsGood(gen, st.ns, r.value.state.ns)
  {
    var (ns1, id) := Assign(gen, st.ns, node.id);
    var g :- DeclareNode(GraphOf(st.nm, active).value, id, index);
    var (ns2, types) := AssignAll(gen, ns1, node.types);
    var nm1 := SetRecord(st.nm, active, id, g.nodes[id]);
    var nm2 := SetRecord(nm1, active, id, g.nodes[id].(types := types));
    DeclareStepSound(st.nm, active, id, index, types);
    DeclaringKeepsGood(gen, st.ns, node);
    Ok(Step(State(ns2, nm2), id))
  }

  /** Assigning a node's identifier and then its types keeps the namespace invariant. */
  lemma DeclaringKeepsGood(gen: Generator, ns: Namespace, node: Node)
    ensures KeepsGood(gen, ns, AssignAll(gen, Assign(gen, ns, node.id).0, node.types).0)
  {
    if FreshBlanks(gen) && Good(gen, ns) {
      AssignKeepsGood(gen, ns, node.id);
      AssignAllKeepsGood(gen, Assign(gen, ns, node.id).0, node.types);
    }
  }

  /** Declaring an unseen node that has an IRI or invalid identifier and no types stores a bare record for it. */
  lemma DeclareUnseen(gen: Generator, st: State, node: Node, index: Option<string>, active: Option<Ref>)
    requires GraphOf(st.nm, active).Some? && Identified(node) && node.types == []
    requires !Holds(st.nm, active, node.id.value)
    ensures DeclareStep(gen, st, node, index, active)
         == Ok(Step(State(st.ns, SetRecord(st.nm, active, node.id.value, WithId(node.id.value, index))), node.id.value))
  {
    var id := node.id.value;
    var g := GraphOf(st.nm, active).value;
    assert DeclareNode(g, id, index) == Ok(Graph(g.nodes[id := WithId(id, index)]));
    var nm1 := SetRecord(st.nm, active, id, WithId(id, index));
    assert WithId(id, index).(types := []) == WithId(id, index);
    var g1 := GraphOf(nm1, active).value;
    assert g1.nodes == g.nodes[id := WithId(id, index)];
    assert g1.nodes[id := WithId(id, index)] == g1.nodes;
    if active.Some? {
      assert nm1.named[active.value := g1] == nm1.named;
    }
    assert SetRecord(nm1, active, id, WithId(id, index)) == nm1;
  }

  lemma DeclareStepSound(nm: NodeMap, active: Option<Ref>, id: Ref, index: Option<string>, types: seq<Ref>)
    requires GraphOf(nm, active).Some?
    requires DeclareNode(GraphOf(nm, active).value, id, index).Ok?
    ensures
      var g := DeclareNode(GraphOf(nm, active).value, id, index).value;
      var nm1 := SetRecord(nm, active, id, g.nodes[id]);
      var nm2 := SetRecord(nm1, active, id, g.nodes[id].(types := types));
      && Grows(nm, nm2)
      && (Sound(nm) ==> Sound(nm2))
  {
    var g0 := GraphOf(nm, active).value;
    var g := DeclareNode(g0, id, index).value;
    var n := g.nodes[id];
    var nm1 := SetRecord(nm, active, id, n);
    var nm2 := SetRecord(nm1, active, id, n.(types := types));
    SetRecordGrows(nm, active, id, n);
    SetRecordGrows(nm1, active, id, n.(types := types));
    GrowsTransitive(nm, nm1, nm2);
    if Sound(nm) {
      if id in g0.nodes {
        assert RecordSound(nm, g0, id, g0.nodes[id]);
        RecordSoundWider(nm, g0, nm1, GraphOf(nm1, active).value, id, n);
      }
      SetRecordSound(nm, active, id, n);
      SetRecordSound(nm1, active, id, n.(types := types));
    }
  }

  /**
    When the node has graph content: a named graph is declared under the
    node's identifier, every member is flattened into it, and the flattened
    members are added to the record's graph content.
   */
  function GraphStep(gen: Generator, st: State, node: Node, id: Ref, active: Option<Ref>)
    : (r: Result<Step<set<IndexedFlat>>, ConflictingIndexes>)
    requires Holds(st.nm, active, id)
    ensures r.Err? ==> IndexesDiffer(r.error)
    ensures r.Ok? ==> Advances(st, r.value.state) && Holds(r.value.state.nm, active, id)
    ensures r.Ok? && node.graph.Some? ==> id in r.value.state.nm.named
    ensures r.Ok? && node.graph.Some? ==> RecordOf(r.value.state.nm, active, id).graph.Some?
    ensures r.Ok? ==> GraphContent(RecordOf(st.nm, active, id)) + r.value.out <= GraphContent(RecordOf(r.value.state.nm, active, id))
    ensures r.Ok? && node.graph.Some? ==>
      forall x :: x in r.value.out ==> exists i :: 0 <= i < |node.graph.value.items| && Corresponds(node.graph.value.items[i], x)
    ensures r.Ok? ==> GraphDescribed(gen, r.value.state, active, node, id)
    ensures r.Ok? && Sound(st.nm) ==> Sound(r.value.state.nm)
    ensures r.Ok? ==> KeepsGood(gen, st.ns, r.value.state.ns)
    ensures UnindexedNode(node) ==> r.Ok?
    decreases node, 1
  {
    if node.graph.None? then
      GrowsReflexive(st.nm);
      Ok(Step(st, {}))
    else
      UnindexedGraph(node);
      FlattenGraph(gen, st, node.graph.value.items, id, active)
  }

  /**
    Graph content `items` of the node declared as `id`: a named graph is
    declared under `id`, every member is flattened into it, and the flattened
    members are added to the record's graph content.
   */
  function FlattenGraph(gen: Generator, st: State, items: seq<IndexedObject>, id: Ref, active: Option<Ref>)
    : (r: Result<Step<set<IndexedFlat>>, ConflictingIndexes>)
    requires Holds(st.nm, active, id)
    ensures r.Err? ==> IndexesDiffer(r.error)
    ensures r.Ok? ==> Advances(st, r.value.state) && Holds(r.value.state.nm, active, id)
    ensures r.Ok? ==> id in r.value.state.nm.named && RecordOf(r.value.state.nm, active, id).graph.Some?
    ensures r.Ok? ==> GraphContent(RecordOf(st.nm, active, id)) + r.value.out <= GraphContent(RecordOf(r.value.state.nm, active, id))
    ensures r.Ok? ==> forall x :: x in r.value.out ==> exists i :: 0 <= i < |items| && Corresponds(items[i], x)
    ensures r.Ok? ==> forall i :: 0 <= i < |items| ==> FlattensInto(gen, r.value.state, Some(id), items[i], r.value.out)
    ensures r.Ok? ==> GraphHolds(gen, r.value.state, active, id, items)
    ensures r.Ok? && Sound(st.nm) ==> Sound(r.value.state.nm)
    ensures r.Ok? ==> KeepsGood(gen, st.ns, r.value.state.ns)
    ensures AllUnindexed(items) ==> r.Ok?
    decreases items, 1
  {
    var nm1 := DeclareGraph(st.nm, id);
    DeclareGraphSound(st.nm, id);
    var flat :- ExtendSeq(gen, State(st.ns, nm1), items, Some(id));
    var st2 := flat.state;
    GrowsTransitive(st.nm, nm1, st2.nm);
    GrowsKeeps(st.nm, st2.nm, active, id);
    var members := set x | x in flat.out;
    var nm3 := AddGraphContent(st2.nm, active, id, members);
    GraphAdded(gen, st, st2, nm3, items, flat.out, members, id, active);
    Ok(Step(State(st2.ns, nm3), members))
  }

  /** What adding the flattened graph content `out` of `items` to the record of `id` leaves behind. */
  lemma GraphAdded(gen: Generator, st: State, st2: State, nm3: NodeMap, items: seq<IndexedObject>, out: seq<IndexedFlat>,
                   members: set<IndexedFlat>, id: Ref, active: Option<Ref>)
    requires Holds(st.nm, active, id) && Grows(st.nm, st2.nm) && Extends(st.ns, st2.ns)
    requires Holds(st2.nm, active, id) && id in st2.nm.named
    requires FlattenedSeq(items, out, KeysOf(st2.nm, Some(id))) && AllFlattened(gen, st2, Some(id), items, out)
    requires members == set x | x in out
    requires nm3 == AddGraphContent(st2.nm, active, id, members)
    ensures Advances(st, State(st2.ns, nm3)) && Holds(nm3, active, id)
    ensures id in nm3.named && RecordOf(nm3, active, id).graph.Some?
    ensures GraphContent(RecordOf(st.nm, active, id)) + members <= GraphContent(RecordOf(nm3, active, id))
    ensures forall x :: x in members ==> exists i :: 0 <= i < |items| && Corresponds(items[i], x)
    ensures forall i :: 0 <= i < |items| ==> FlattensInto(gen, State(st2.ns, nm3), Some(id), items[i], members)
    ensures GraphHolds(gen, State(st2.ns, nm3), active, id, items)
    ensures Sound(st2.nm) ==> Sound(nm3)
  {
    SeqWithinSet(out, members, KeysOf(st2.nm, Some(id)));
    GrowsKeeps(st.nm, st2.nm, active, id);
    GrowsTransitive(st.nm, st2.nm, nm3);
    MembersCorrespond(items, out, members);
    GraphContentHolds(gen, st2, State(st2.ns, nm3), active, id, items, out, members);
  }

  /** Each member of the set of flattened objects is the flattening of some object. */
  lemma MembersCorrespond(items: seq<IndexedObject>, out: seq<IndexedFlat>, members: set<IndexedFlat>)
    requires |out| == |items| && forall i :: 0 <= i < |items| ==> Corresponds(items[i], out[i])
    requires members == set x | x in out
    ensures forall x :: x in members ==> exists i :: 0 <= i < |items| && Corresponds(items[i], x)
  {
    forall x | x in members
      ensures exists i :: 0 <= i < |items| && Corresponds(items[i], x)
    {
      var i :| 0 <= i < |out| && out[i] == x;
      assert Corresponds(items[i], out[i]);
    }
  }

  /** After the flattened members `out` of `items` are added to the record of `id`, the record's graph content holds them. */
  lemma GraphContentHolds(gen: Generator, st2: State, st3: State, active: Option<Ref>, id: Ref,
                          items: seq<IndexedObject>, out: seq<IndexedFlat>, members: set<IndexedFlat>)
    requires st3.ns == st2.ns && Grows(st2.nm, st3.nm) && AllFlattened(gen, st2, Some(id), items, out)
    requires members == set x | x in out
    requires Holds(st3.nm, active, id) && id in st3.nm.named
    requires RecordOf(st3.nm, active, id).graph.Some? && members <= RecordOf(st3.nm, active, id).graph.value
    ensures forall i :: 0 <= i < |items| ==> FlattensInto(gen, st3, Some(id), items[i], members)
    ensures GraphHolds(gen, st3, active, id, items)
  {
    AllFlattenedPersist(gen, st2, st3, Some(id), items, out);
    FlattensIntoAll(gen, st3, Some(id), items, out, members);
    FlattensIntoAll(gen, st3, Some(id), items, out, GraphContent(RecordOf(st3.nm, active, id)));
  }

  lemma SeqWithinSet(out: seq<IndexedFlat>, members: set<IndexedFlat>, keys: set<Ref>)
    requires members == set x | x in out
    ensures SeqWithin(out, keys) ==> SetWithin(members, keys)
  {
  }

  lemma UnindexedGraph(node: Node)
    requires node.graph.Some?
    ensures UnindexedNode(node) ==> AllUnindexed(node.graph.value.items)
  {
  }

  /** Adds `members` to the graph content of the record of `id`, which then has a graph. */
  function AddGraphContent(nm: NodeMap, active: Option<Ref>, id: Ref, members: set<IndexedFlat>): (r: NodeMap)
    requires Holds(nm, active, id) && id in nm.named
    ensures Grows(nm, r) && Holds(r, active, id) && id in r.named
    ensures RecordOf(r, active, id).graph == Some(GraphContent(RecordOf(nm, active, id)) + members)
    ensures Sound(nm) && SetWithin(members, KeysOf(nm, Some(id))) ==> Sound(r)
  {
    var rec := RecordOf(nm, active, id);
    var rec' := rec.(graph := Some(GraphContent(rec) + members));
    SetRecordGrows(nm, active, id, rec');
    GraphStepSound(nm, active, id, members);
    SetRecord(nm, active, id, rec')
  }

  lemma GraphStepSound(nm: NodeMap, active: Option<Ref>, id: Ref, members: set<IndexedFlat>)
    requires Holds(nm, active, id) && id in nm.named
    ensures
      var rec := RecordOf(nm, active, id);
      Sound(nm) && SetWithin(members, KeysOf(nm, Some(id))) ==> Sound(SetRecord(nm, active, id, rec.(graph := Some(GraphContent(rec) + members))))
  {
    var rec := RecordOf(nm, active, id);
    var rec' := rec.(graph := Some(GraphContent(rec) + members));
    if Sound(nm) && SetWithin(members, KeysOf(nm, Some(id))) {
      var g := GraphOf(nm, active).value;
      assert RecordSound(nm, g, id, rec);
      var r := SetRecord(nm, active, id, rec');
      assert KeysOf(nm, Some(id)) <= KeysOf(r, Some(id));
      assert KeysOf(r, active) == KeysOf(nm, active);
      assert RecordSound(r, GraphOf(r, active).value, id, rec');
      SetRecordSound(nm, active, id, rec');
    }
  }

  /** `out` is `items` flattened, and refers only to nodes among `keys`. */
  ghost predicate FlattenedSeq(items: seq<IndexedObject>, out: seq<IndexedFlat>, keys: set<Ref>) {
    && |out| == |items|
    && (forall i :: 0 <= i < |items| ==> Corresponds(items[i], out[i]))
    && SeqWithin(out, keys)
  }

  lemma FlattenedSeqCons(items: seq<IndexedObject>, head: IndexedFlat, rest: seq<IndexedFlat>, keys: set<Ref>, keys': set<Ref>)
    requires |items| > 0 && Corresponds(items[0], head) && Refs(head) <= keys && keys <= keys'
    requires FlattenedSeq(items[1..], rest, keys')
    ensures FlattenedSeq(items, [head] + rest, keys')
  {
    var out := [head] + rest;
    assert forall i :: 1 <= i < |items| ==> out[i] == rest[i - 1] && items[i] == items[1..][i - 1];
  }

  /** Flattens a sequence of objects in order, threading the state. */
  function ExtendSeq(gen: Generator, st: State, items: seq<IndexedObject>, active: Option<Ref>)
    : (r: Result<Step<seq<IndexedFlat>>, ConflictingIndexes>)
    requires GraphOf(st.nm, active).Some?
    ensures r.Err? ==> IndexesDiffer(r.error)
    ensures r.Ok? ==> Advances(st, r.value.state) && GraphOf(r.value.state.nm, active).Some?
    ensures r.Ok? ==> FlattenedSeq(items, r.value.out, KeysOf(r.value.state.nm, active))
    ensures r.Ok? ==> AllFlattened(gen, r.value.state, active, items, r.value.out)
    ensures r.Ok? && Sound(st.nm) ==> Sound(r.value.state.nm)
    ensures r.Ok? ==> KeepsGood(gen, st.ns, r.value.state.ns)
    ensures AllUnindexed(items) ==> r.Ok?
    decreases items, 0
  {
    if |items| == 0 then
      GrowsReflexive(st.nm);
      Ok(Step(st, []))
    else
      AllUnindexedTail(items);
      var head :- Extend(gen, st, items[0], active);
      GrowsKeepsGraph(st.nm, head.state.nm, active);
      var tail :- ExtendSeq(gen, head.state, items[1..], active);
      AdvancesTransitive(st, head.state, tail.state);
      GrowsKeepsGraph(head.state.nm, tail.state.nm, active);
      FlattenedSeqCons(items, head.out, tail.out, KeysOf(head.state.nm, active), KeysOf(tail.state.nm, active));
      AllFlattenedCons(gen, head.state, tail.state, active, items, head.out, tail.out);
      Ok(Step(tail.state, [head.out] + tail.out))
  }

  /**
    `extend_node_map`: a value is copied with its index; a list is flattened
    item by item into a list of the same length with the same index; a node is
    flattened and replaced by an id-only reference without index.
   */
  function Extend(gen: Generator, st: State, element: IndexedObject, active: Option<Ref>)
    : (r: Result<Step<IndexedFlat>, ConflictingIndexes>)
    requires GraphOf(st.nm, active).Some?
    ensures r.Err? ==> IndexesDiffer(r.error)
    ensures r.Ok? ==> Advances(st, r.value.state)
    ensures r.Ok? ==> Corresponds(element, r.value.out)
    ensures r.Ok? ==> Flattened(gen, r.value.state, active, element, r.value.out)
    ensures r.Ok? ==> Refs(r.value.out) <= KeysOf(r.value.state.nm, active)
    ensures r.Ok? && element.inner.ValueObject? ==> r.value.state == st
    ensures r.Ok? && element.inner.NodeObject? ==>
      && r.value.out == RefTo(Assign(gen, st.ns, element.inner.node.id).1)
      && Holds(r.value.state.nm, active, r.value.out.inner.id)
    ensures r.Ok? && Sound(st.nm) ==> Sound(r.value.state.nm)
    ensures r.Ok? ==> KeepsGood(gen, st.ns, r.value.state.ns)
    ensures Unindexed(element) ==> r.Ok?
    decreases element, 0
  {
    match element.inner
    case ValueObject(v) =>
      GrowsReflexive(st.nm);
      Ok(Step(st, IndexedFlat(FlatValue(v), element.index)))
    case ListObject(items) =>
      var flat :- ExtendSeq(gen, st, items, active);
      var out := IndexedFlat(FlatList(flat.out), element.index);
      assert Refs(out) <= KeysOf(flat.state.nm, active) by {
        forall x | x in Refs(out) ensures x in KeysOf(flat.state.nm, active) {
          var i :| 0 <= i < |flat.out| && x in Refs(flat.out[i]);
          assert flat.out[i] in flat.out;
        }
      }
      Ok(Step(flat.state, out))
    case NodeObject(node) =>
      var flat :- ExtendNode(gen, st, node, element.index, active);
      Ok(Step(flat.state, RefTo(flat.out)))
  }

  /**
    `extend_node_map_from_node`: declares the node, flattens its graph content,
    its included nodes, its properties and its reverse properties, and returns
    its identifier, which then names a record of the graph being filled.
   */
  function ExtendNode(gen: Generator, st: State, node: Node, index: Option<string>, active: Option<Ref>)
    : (r: Result<Step<Ref>, ConflictingIndexes>)
    requires GraphOf(st.nm, active).Some?
    ensures r.Err? ==> IndexesDiffer(r.error)
    ensures r.Ok? ==> r.value.out == Assign(gen, st.ns, node.id).1
    ensures r.Ok? ==> Advances(st, r.value.state)
    ensures r.Ok? ==> Names(gen, r.value.state.ns, node.id, r.value.out)
    ensures r.Ok? ==> Described(gen, r.value.state, active, node, r.value.out)
    ensures r.Ok? && index.Some? ==> RecordOf(r.value.state.nm, active, r.value.out).index == index
    ensures r.Ok? && Sound(st.nm) ==> Sound(r.value.state.nm)
    ensures r.Ok? ==> KeepsGood(gen, st.ns, r.value.state.ns)
    ensures DeclareStep(gen, st, node, index, active).Err? ==> r == Err(DeclareStep(gen, st, node, index, active).error)
    ensures index.None? && UnindexedNode(node) ==> r.Ok?
    decreases node, 3
  {
    var declared :- DeclareStep(gen, st, node, index, active);
    var id := declared.out;
    var nested :- NestedStep(gen, declared.state, node, id, active);
    AdvancesTransitive(st, declared.state, nested);
    var described :- EdgesStep(gen, nested, node, id, active);
    AdvancesTransitive(st, nested, described);
    NodeDescribed(gen, st, declared.state, nested, described, node, index, id, active);
    Ok(Step(described, id))
  }

  /**
    The three steps for a node put together: once the node is declared, its
    graph content and included nodes flattened, and its properties and reverse
    properties flattened, the node is described under the identifier assigned
    to it, and an index it was declared with is the index of its record.
   */
  lemma NodeDescribed(gen: Generator, st: State, declared: State, nested: State, described: State,
                      node: Node, index: Option<string>, id: Ref, active: Option<Ref>)
    requires id == Assign(gen, st.ns, node.id).1 && Extends(Assign(gen, st.ns, node.id).0, declared.ns)
    requires Advances(declared, nested) && Advances(nested, described)
    requires Holds(declared.nm, active, id) && (index.Some? ==> RecordOf(declared.nm, active, id).index == index)
    requires GraphDescribed(gen, nested, active, node, id) && IncludedDescribed(gen, nested, active, node)
    requires Holds(described.nm, active, id)
    requires PropertiesDescribed(gen, described, active, node, id) && ReverseDescribed(gen, described, active, node, id)
    ensures Names(gen, described.ns, node.id, id)
    ensures Described(gen, described, active, node, id)
    ensures index.Some? ==> RecordOf(described.nm, active, id).index == index
  {
    AdvancesTransitive(declared, nested, described);
    ExtendsTransitive(Assign(gen, st.ns, node.id).0, declared.ns, described.ns);
    AssignNames(gen, st.ns, node.id, described.ns);
    GrowsKeeps(declared.nm, described.nm, active, id);
    if node.graph.Some? {
      GraphHoldsPersists(gen, nested, described, active, id, node.graph.value.items);
    }
    IncludedPersists(gen, nested, described, active, node);
  }

  /** The graph content and the included nodes of the node declared as `id`. */
  function NestedStep(gen: Generator, st: State, node: Node, id: Ref, active: Option<Ref>)
    : (r: Result<State, ConflictingIndexes>)
    requires Holds(st.nm, active, id)
    ensures r.Err? ==> IndexesDiffer(r.error)
    ensures r.Ok? ==> Advances(st, r.value) && Holds(r.value.nm, active, id)
    ensures r.Ok? && node.graph.Some? ==> id in r.value.nm.named && RecordOf(r.value.nm, active, id).graph.Some?
    ensures r.Ok? && node.included.Some? ==>
      forall k :: 0 <= k < |node.included.value.items| && Identified(node.included.value.items[k].inner) ==>
        Holds(r.value.nm, active, node.included.value.items[k].inner.id.value)
    ensures r.Ok? ==> GraphDescribed(gen, r.value, active, node, id)
    ensures r.Ok? ==> IncludedDescribed(gen, r.value, active, node)
    ensures r.Ok? && Sound(st.nm) ==> Sound(r.value.nm)
    ensures r.Ok? ==> KeepsGood(gen, st.ns, r.value.ns)
    ensures UnindexedNode(node) ==> r.Ok?
    decreases node, 2
  {
    var graphed :- GraphStep(gen, st, node, id, active);
    var included :- IncludedStep(gen, graphed.state, node, active);
    AdvancesTransitive(st, graphed.state, included.state);
    GrowsKeeps(graphed.state.nm, included.state.nm, active, id);
    forall k | node.included.Some? && 0 <= k < |node.included.value.items| && Identified(node.included.value.items[k].inner)
      ensures Holds(included.state.nm, active, node.included.value.items[k].inner.id.value)
    {
      assert included.out[k] in included.out;
    }
    GraphDescribedPersists(gen, graphed.state, included.state, active, node, id);
    IncludedFrom(gen, included.state, active, node, included.out);
    Ok(included.state)
  }

  lemma IncludedFrom(gen: Generator, st: State, active: Option<Ref>, node: Node, ids: seq<Ref>)
    requires node.included.Some? ==> AllGive(gen, st, active, node.included.value.items, ids)
    ensures IncludedDescribed(gen, st, active, node)
  {
    if node.included.Some? {
      forall k | 0 <= k < |node.included.value.items|
        ensures Mentioned(gen, st, active, node.included.value.items[k])
      {
        assert Gives(gen, st, active, node.included.value.items[k], ids[k]);
      }
    }
  }

  /** The properties and the reverse properties of the node declared as `id`. */
  function EdgesStep(gen: Generator, st: State, node: Node, id: Ref, active: Option<Ref>)
    : (r: Result<State, ConflictingIndexes>)
    requires Holds(st.nm, active, id)
    ensures r.Err? ==> IndexesDiffer(r.error)
    ensures r.Ok? ==> Advances(st, r.value) && Holds(r.value.nm, active, id)
    ensures r.Ok? ==> forall e :: e in node.properties ==> e.property in RecordOf(r.value.nm, active, id).properties
    ensures r.Ok? ==> PropertiesDescribed(gen, r.value, active, node, id)
    ensures r.Ok? ==> ReverseDescribed(gen, r.value, active, node, id)
    ensures r.Ok? ==> forall i, j ::
      0 <= i < |node.reverseProperties| && 0 <= j < |node.reverseProperties[i].values| && Identified(node.reverseProperties[i].values[j].inner) ==>
        HasEdge(r.value.nm, active, node.reverseProperties[i].values[j].inner.id.value, node.reverseProperties[i].property, id)
    ensures r.Ok? && Sound(st.nm) ==> Sound(r.value.nm)
    ensures r.Ok? ==> KeepsGood(gen, st.ns, r.value.ns)
    ensures UnindexedNode(node) ==> r.Ok?
    decreases node, 2
  {
    var described :- ExtendProperties(gen, st, node.properties, id, active);
    var reversed :- ExtendReverse(gen, described, node.reverseProperties, id, active);
    AdvancesTransitive(st, described, reversed.state);
    GrowsKeeps(described.nm, reversed.state.nm, active, id);
    forall i | 0 <= i < |node.properties|
      ensures ObjectsDescribed(gen, reversed.state, active, id, node.properties[i].property, node.properties[i].values)
    {
      ObjectsPersist(gen, described, reversed.state, active, id, node.properties[i].property, node.properties[i].values);
    }
    IdentifiedSubjects(reversed.state.nm, active, id, node.reverseProperties, reversed.out);
    ReverseFrom(gen, reversed.state, active, id, node.reverseProperties, reversed.out);
    Ok(reversed.state)
  }

  /** A node with no graph, included nodes or properties is only declared. */
  lemma BareNode(gen: Generator, st: State, node: Node, index: Option<string>, active: Option<Ref>)
    requires GraphOf(st.nm, active).Some?
    requires node.graph.None? && node.included.None? && node.properties == [] && node.reverseProperties == []
    ensures ExtendNode(gen, st, node, index, active) == DeclareStep(gen, st, node, index, active)
  {
    var d := DeclareStep(gen, st, node, index, active);
    if d.Ok? {
      assert GraphStep(gen, d.value.state, node, d.value.out, active) == Ok(Step(d.value.state, {}));
      assert NestedStep(gen, d.value.state, node, d.value.out, active) == Ok(d.value.state);
      assert EdgesStep(gen, d.value.state, node, d.value.out, active) == Ok(d.value.state);
    }
  }

  /** Flattens a node that carries its own index (an included node or a reverse subject). */
  function ExtendIndexed(gen: Generator, st: State, n: IndexedNode, active: Option<Ref>)
    : (r: Result<Step<Ref>, ConflictingIndexes>)
    requires GraphOf(st.nm, active).Some?
    ensures r.Err? ==> IndexesDiffer(r.error)
    ensures r.Ok? ==> r.value.out == Assign(gen, st.ns, n.inner.id).1
    ensures r.Ok? ==> Advances(st, r.value.state)
    ensures r.Ok? ==> Holds(r.value.state.nm, active, r.value.out)
    ensures r.Ok? ==> Gives(gen, r.value.state, active, n, r.value.out)
    ensures r.Ok? && Sound(st.nm) ==> Sound(r.value.state.nm)
    ensures r.Ok? ==> KeepsGood(gen, st.ns, r.value.state.ns)
    ensures UnindexedMember(n) ==> r.Ok?
    decreases n, 0
  {
    ExtendNode(gen, st, n.inner, n.index, active)
  }

  /**
    No node anywhere inside `o` carries an index, so no declaration can clash
    with a stored one. Values and lists may carry indexes: they never reach a
    record's index.
   */
  predicate Unindexed(o: IndexedObject)
    decreases o
  {
    match o.inner
    case ValueObject(_) => true
    case ListObject(items) => AllUnindexed(items)
    case NodeObject(n) => o.index.None? && UnindexedNode(n)
  }

  predicate AllUnindexed(items: seq<IndexedObject>)
    decreases items
  {
    forall i :: 0 <= i < |items| ==> Unindexed(items[i])
  }

  predicate UnindexedNodes(nodes: seq<IndexedNode>)
    decreases nodes
  {
    forall i :: 0 <= i < |nodes| ==> UnindexedMember(nodes[i])
  }

  predicate UnindexedMember(n: IndexedNode)
    decreases n
  {
    n.index.None? && UnindexedNode(n.inner)
  }

  lemma AllUnindexedTail(items: seq<IndexedObject>)
    requires |items| > 0
    ensures AllUnindexed(items) ==> Unindexed(items[0]) && AllUnindexed(items[1..])
  {
    if AllUnindexed(items) {
      assert forall i :: 0 <= i < |items[1..]| ==> items[1..][i] == items[i + 1];
    }
  }

  lemma UnindexedNodesTail(nodes: seq<IndexedNode>)
    requires |nodes| > 0
    ensures UnindexedNodes(nodes) ==> UnindexedMember(nodes[0]) && UnindexedNodes(nodes[1..])
  {
    if UnindexedNodes(nodes) {
      assert forall i :: 0 <= i < |nodes[1..]| ==> nodes[1..][i] == nodes[i + 1];
    }
  }

  /** No node nested in the graph content, included nodes or property maps of `n` carries an index. */
  predicate UnindexedNode(n: Node)
    decreases n
  {
    && (n.graph.Some? ==> AllUnindexed(n.graph.value.items))
    && (n.included.Some? ==> UnindexedNodes(n.included.value.items))
    && (forall i :: 0 <= i < |n.properties| ==> AllUnindexed(n.properties[i].values))
    && (forall i :: 0 <= i < |n.reverseProperties| ==> UnindexedNodes(n.reverseProperties[i].values))
  }

  /**
    `ids[i]` is the identifier given to `nodes[i]`: a node identified by an IRI
    or an invalid reference keeps it.
   */
  predicate KeepsIds(nodes: seq<IndexedNode>, ids: seq<Ref>) {
    && |ids| == |nodes|
    && forall i :: 0 <= i < |nodes| && Identified(nodes[i].inner) ==> ids[i] == nodes[i].inner.id.value
  }

  lemma KeepsIdsCons(nodes: seq<IndexedNode>, head: Ref, rest: seq<Ref>)
    requires |nodes| > 0
    requires Identified(nodes[0].inner) ==> head == nodes[0].inner.id.value
    requires KeepsIds(nodes[1..], rest)
    ensures KeepsIds(nodes, [head] + rest)
  {
    var ids := [head] + rest;
    assert forall i :: 1 <= i < |nodes| ==> ids[i] == rest[i - 1] && nodes[i] == nodes[1..][i - 1];
  }

  /**
    When the node has included nodes, each is flattened into the same graph as
    the node; the result is their identifiers, each naming a record there.
   */
  function IncludedStep(gen: Generator, st: State, node: Node, active: Option<Ref>)
    : (r: Result<Step<seq<Ref>>, ConflictingIndexes>)
    requires GraphOf(st.nm, active).Some?
    ensures r.Err? ==> IndexesDiffer(r.error)
    ensures r.Ok? ==> Advances(st, r.value.state)
    ensures r.Ok? && node.included.None? ==> r.value == Step(st, [])
    ensures r.Ok? && node.included.Some? ==> KeepsIds(node.included.value.items, r.value.out)
    ensures r.Ok? && node.included.Some? ==> AllGive(gen, r.value.state, active, node.included.value.items, r.value.out)
    ensures r.Ok? ==> forall x :: x in r.value.out ==> Holds(r.value.state.nm, active, x)
    ensures r.Ok? && Sound(st.nm) ==> Sound(r.value.state.nm)
    ensures r.Ok? ==> KeepsGood(gen, st.ns, r.value.state.ns)
    ensures UnindexedNode(node) ==> r.Ok?
    decreases node, 1
  {
    if node.included.None? then
      GrowsReflexive(st.nm);
      Ok(Step(st, []))
    else
      ExtendIncluded(gen, st, node.included.value.items, active)
  }

  /** Flattens included nodes in order, collecting their identifiers. */
  function ExtendIncluded(gen: Generator, st: State, nodes: seq<IndexedNode>, active: Option<Ref>)
    : (r: Result<Step<seq<Ref>>, ConflictingIndexes>)
    requires GraphOf(st.nm, active).Some?
    ensures r.Err? ==> IndexesDiffer(r.error)
    ensures r.Ok? ==> Advances(st, r.value.state)
    ensures r.Ok? ==> KeepsIds(nodes, r.value.out)
    ensures r.Ok? ==> AllGive(gen, r.value.state, active, nodes, r.value.out)
    ensures r.Ok? ==> forall x :: x in r.value.out ==> Holds(r.value.state.nm, active, x)
    ensures r.Ok? && Sound(st.nm) ==> Sound(r.value.state.nm)
    ensures r.Ok? ==> KeepsGood(gen, st.ns, r.value.state.ns)
    ensures UnindexedNodes(nodes) ==> r.Ok?
    decreases nodes, 0
  {
    if |nodes| == 0 then
      GrowsReflexive(st.nm);
      Ok(Step(st, []))
    else
      UnindexedNodesTail(nodes);
      var head :- ExtendIndexed(gen, st, nodes[0], active);
      GrowsKeepsGraph(st.nm, head.state.nm, active);
      var rest :- ExtendIncluded(gen, head.state, nodes[1..], active);
      AdvancesTransitive(st, head.state, rest.state);
      GrowsKeeps(head.state.nm, rest.state.nm, active, head.out);
      KeepsIdsCons(nodes, head.out, rest.out);
      AllGiveCons(gen, head.state, rest.state, active, nodes, head.out, rest.out);
      Ok(Step(rest.state, [head.out] + rest.out))
  }

  /**
    One forward property: its objects are flattened in order into the graph
    being filled, and every flattened object is then listed under the property
    in the node's record, without repeating a (property, value) pair.
   */
  function PropertyStep(gen: Generator, st: State, property: Ref, objects: seq<IndexedObject>, id: Ref, active: Option<Ref>)
    : (r: Result<Step<seq<IndexedFlat>>, ConflictingIndexes>)
    requires Holds(st.nm, active, id)
    ensures r.Err? ==> IndexesDiffer(r.error)
    ensures r.Ok? ==> Advances(st, r.value.state) && Holds(r.value.state.nm, active, id)
    ensures r.Ok? ==> |r.value.out| == |objects|
    ensures r.Ok? ==> forall i :: 0 <= i < |objects| ==> Corresponds(objects[i], r.value.out[i])
    ensures r.Ok? ==> property in RecordOf(r.value.state.nm, active, id).properties
    ensures r.Ok? ==> forall x :: x in r.value.out ==> x in RecordOf(r.value.state.nm, active, id).properties[property]
    ensures r.Ok? ==> ObjectsDescribed(gen, r.value.state, active, id, property, objects)
    ensures r.Ok? && Sound(st.nm) ==> Sound(r.value.state.nm)
    ensures r.Ok? ==> KeepsGood(gen, st.ns, r.value.state.ns)
    ensures AllUnindexed(objects) ==> r.Ok?
    decreases objects, 1
  {
    var flat :- ExtendSeq(gen, st, objects, active);
    GrowsKeeps(st.nm, flat.state.nm, active, id);
    var rec := RecordOf(flat.state.nm, active, id);
    var rec' := rec.(properties := InsertAllUnique(rec.properties, property, flat.out));
    var nm' := SetRecord(flat.state.nm, active, id, rec');
    SetRecordGrows(flat.state.nm, active, id, rec');
    GrowsTransitive(st.nm, flat.state.nm, nm');
    PropertyStepSound(flat.state.nm, active, id, property, flat.out);
    AllFlattenedPersist(gen, flat.state, State(flat.state.ns, nm'), active, objects, flat.out);
    ObjectsFrom(gen, State(flat.state.ns, nm'), active, id, property, objects, flat.out);
    Ok(Step(State(flat.state.ns, nm'), flat.out))
  }

  lemma PropertyStepSound(nm: NodeMap, active: Option<Ref>, id: Ref, property: Ref, values: seq<IndexedFlat>)
    requires Holds(nm, active, id)
    requires SeqWithin(values, KeysOf(nm, active))
    ensures
      var rec := RecordOf(nm, active, id);
      Sound(nm) ==> Sound(SetRecord(nm, active, id, rec.(properties := InsertAllUnique(rec.properties, property, values))))
  {
    var rec := RecordOf(nm, active, id);
    var rec' := rec.(properties := InsertAllUnique(rec.properties, property, values));
    if Sound(nm) {
      var g := GraphOf(nm, active).value;
      assert RecordSound(nm, g, id, rec);
      var r := SetRecord(nm, active, id, rec');
      assert KeysOf(r, active) == KeysOf(nm, active);
      assert PropertiesWithin(rec'.properties, KeysOf(nm, active)) by {
        forall p, x | p in rec'.properties && x in rec'.properties[p]
          ensures Refs(x) <= KeysOf(nm, active)
        {
          if p == property && x !in values {
            assert x in ValuesOf(rec.properties, p);
          }
        }
      }
      RecordSoundWider(nm, g, r, GraphOf(r, active).value, id, rec');
      SetRecordSound(nm, active, id, rec');
    }
  }

  /** The forward properties of a node, one after the other. */
  function ExtendProperties(gen: Generator, st: State, props: seq<Entry<IndexedObject>>, id: Ref, active: Option<Ref>)
    : (r: Result<State, ConflictingIndexes>)
    requires Holds(st.nm, active, id)
    ensures r.Err? ==> IndexesDiffer(r.error)
    ensures r.Ok? ==> Advances(st, r.value) && Holds(r.value.nm, active, id)
    ensures r.Ok? ==> forall e :: e in props ==> e.property in RecordOf(r.value.nm, active, id).properties
    ensures r.Ok? ==> forall i :: 0 <= i < |props| ==> ObjectsDescribed(gen, r.value, active, id, props[i].property, props[i].values)
    ensures r.Ok? && Sound(st.nm) ==> Sound(r.value.nm)
    ensures r.Ok? ==> KeepsGood(gen, st.ns, r.value.ns)
    ensures (forall i :: 0 <= i < |props| ==> AllUnindexed(props[i].values)) ==> r.Ok?
    decreases props, 0
  {
    if |props| == 0 then
      GrowsReflexive(st.nm);
      Ok(st)
    else
      var head :- PropertyStep(gen, st, props[0].property, props[0].values, id, active);
      var rest :- ExtendProperties(gen, head.state, props[1..], id, active);
      AdvancesTransitive(st, head.state, rest);
      GrowsKeeps(head.state.nm, rest.nm, active, id);
      EntriesCons(gen, head.state, rest, active, id, props);
      assert forall e :: e in props ==> e == props[0] || e in props[1..];
      Ok(rest)
  }

  lemma EntriesCons(gen: Generator, a: State, b: State, active: Option<Ref>, id: Ref, props: seq<Entry<IndexedObject>>)
    requires |props| > 0 && Advances(a, b) && ObjectsDescribed(gen, a, active, id, props[0].property, props[0].values)
    requires forall i :: 0 <= i < |props| - 1 ==> ObjectsDescribed(gen, b, active, id, props[1..][i].property, props[1..][i].values)
    ensures forall i :: 0 <= i < |props| ==> ObjectsDescribed(gen, b, active, id, props[i].property, props[i].values)
  {
    ObjectsPersist(gen, a, b, active, id, props[0].property, props[0].values);
    assert forall i :: 1 <= i < |props| ==> props[i] == props[1..][i - 1];
  }

  /**
    One reverse property: each subject is flattened into the graph being
    filled, and its record then lists `property -> node(id)`.
   */
  function ExtendSubjects(gen: Generator, st: State, property: Ref, subjects: seq<IndexedNode>, id: Ref, active: Option<Ref>)
    : (r: Result<Step<seq<Ref>>, ConflictingIndexes>)
    requires Holds(st.nm, active, id)
    ensures r.Err? ==> IndexesDiffer(r.error)
    ensures r.Ok? ==> Advances(st, r.value.state) && Holds(r.value.state.nm, active, id)
    ensures r.Ok? ==> KeepsIds(subjects, r.value.out)
    ensures r.Ok? ==> AllGive(gen, r.value.state, active, subjects, r.value.out)
    ensures r.Ok? ==> forall s :: s in r.value.out ==> HasEdge(r.value.state.nm, active, s, property, id)
    ensures r.Ok? && Sound(st.nm) ==> Sound(r.value.state.nm)
    ensures r.Ok? ==> KeepsGood(gen, st.ns, r.value.state.ns)
    ensures UnindexedNodes(subjects) ==> r.Ok?
    decreases subjects, 0
  {
    if |subjects| == 0 then
      GrowsReflexive(st.nm);
      Ok(Step(st, []))
    else
      UnindexedNodesTail(subjects);
      var subject :- ExtendIndexed(gen, st, subjects[0], active);
      var sid := subject.out;
      GrowsKeeps(st.nm, subject.state.nm, active, id);
      var nm' := AddEdge(subject.state.nm, active, sid, property, id);
      GrowsTransitive(st.nm, subject.state.nm, nm');
      var st1 := State(subject.state.ns, nm');
      var rest :- ExtendSubjects(gen, st1, property, subjects[1..], id, active);
      AdvancesTransitive(st, st1, rest.state);
      EdgePersists(nm', rest.state.nm, active, sid, property, id);
      EdgesCons(rest.state.nm, active, sid, rest.out, property, id);
      KeepsIdsCons(subjects, sid, rest.out);
      AdvancesTransitive(subject.state, st1, rest.state);
      AllGiveCons(gen, subject.state, rest.state, active, subjects, sid, rest.out);
      Ok(Step(rest.state, [sid] + rest.out))
  }

  /**
    Lists `property -> node(target)` in the record of `subject`, unless the
    record already lists that pair.
   */
  function AddEdge(nm: NodeMap, active: Option<Ref>, subject: Ref, property: Ref, target: Ref): (r: NodeMap)
    requires Holds(nm, active, subject) && Holds(nm, active, target)
    ensures Grows(nm, r) && HasEdge(r, active, subject, property, target)
    ensures KeysOf(r, active) == KeysOf(nm, active)
    ensures forall k :: k != subject && Holds(nm, active, k) ==> RecordOf(r, active, k) == RecordOf(nm, active, k)
    ensures Sound(nm) ==> Sound(r)
  {
    var rec := RecordOf(nm, active, subject);
    var rec' := rec.(properties := InsertUnique(rec.properties, property, RefTo(target)));
    SetRecordGrows(nm, active, subject, rec');
    ReverseEdgeSound(nm, active, subject, property, target);
    SetRecord(nm, active, subject, rec')
  }

  lemma ReverseEdgeSound(nm: NodeMap, active: Option<Ref>, subject: Ref, property: Ref, id: Ref)
    requires Holds(nm, active, subject) && Holds(nm, active, id)
    ensures
      var rec := RecordOf(nm, active, subject);
      Sound(nm) ==> Sound(SetRecord(nm, active, subject, rec.(properties := InsertUnique(rec.properties, property, RefTo(id)))))
  {
    var rec := RecordOf(nm, active, subject);
    AppendOne(ValuesOf(rec.properties, property), RefTo(id));
    assert InsertUnique(rec.properties, property, RefTo(id)) == InsertAllUnique(rec.properties, property, [RefTo(id)]);
    assert Refs(RefTo(id)) == {id};
    PropertyStepSound(nm, active, subject, property, [RefTo(id)]);
  }

  /**
    `subjects[i][j]` is the identifier of the `j`-th subject of the `i`-th
    reverse property in `rev`, and its record has the forward edge
    `rev[i].property -> node(id)`.
   */
  ghost predicate ReverseEdges(nm: NodeMap, active: Option<Ref>, id: Ref, rev: seq<Entry<IndexedNode>>, subjects: seq<seq<Ref>>) {
    && |subjects| == |rev|
    && (forall i :: 0 <= i < |rev| ==> KeepsIds(rev[i].values, subjects[i]))
    && (forall i, j :: 0 <= i < |rev| && 0 <= j < |subjects[i]| ==> HasEdge(nm, active, subjects[i][j], rev[i].property, id))
  }

  lemma ReverseEdgesCons(nm: NodeMap, active: Option<Ref>, id: Ref, rev: seq<Entry<IndexedNode>>, head: seq<Ref>, rest: seq<seq<Ref>>)
    requires |rev| > 0 && KeepsIds(rev[0].values, head)
    requires forall s :: s in head ==> HasEdge(nm, active, s, rev[0].property, id)
    requires ReverseEdges(nm, active, id, rev[1..], rest)
    ensures ReverseEdges(nm, active, id, rev, [head] + rest)
  {
    var out := [head] + rest;
    forall i, j | 0 <= i < |rev| && 0 <= j < |out[i]|
      ensures HasEdge(nm, active, out[i][j], rev[i].property, id)
    {
      if i == 0 {
        assert out[i][j] in head;
      } else {
        assert out[i] == rest[i - 1] && rev[i] == rev[1..][i - 1];
      }
    }
    assert forall i :: 1 <= i < |rev| ==> out[i] == rest[i - 1] && rev[i] == rev[1..][i - 1];
  }

  /**
    The reverse properties of a node, one after the other. Each subject of each
    reverse property gets the forward edge `property -> node(id)`; the node's
    own record gets no reverse property. The result gives, per property and
    per subject, the identifier of the subject.
   */
  function ExtendReverse(gen: Generator, st: State, rev: seq<Entry<IndexedNode>>, id: Ref, active: Option<Ref>)
    : (r: Result<Step<seq<seq<Ref>>>, ConflictingIndexes>)
    requires Holds(st.nm, active, id)
    ensures r.Err? ==> IndexesDiffer(r.error)
    ensures r.Ok? ==> Advances(st, r.value.state) && Holds(r.value.state.nm, active, id)
    ensures r.Ok? ==> ReverseEdges(r.value.state.nm, active, id, rev, r.value.out)
    ensures r.Ok? ==> forall i :: 0 <= i < |rev| ==> AllGive(gen, r.value.state, active, rev[i].values, r.value.out[i])
    ensures r.Ok? && Sound(st.nm) ==> Sound(r.value.state.nm)
    ensures r.Ok? ==> KeepsGood(gen, st.ns, r.value.state.ns)
    ensures (forall i :: 0 <= i < |rev| ==> UnindexedNodes(rev[i].values)) ==> r.Ok?
    decreases rev, 0
  {
    if |rev| == 0 then
      GrowsReflexive(st.nm);
      Ok(Step(st, []))
    else
      var head :- ExtendSubjects(gen, st, rev[0].property, rev[0].values, id, active);
      var rest :- ExtendReverse(gen, head.state, rev[1..], id, active);
      AdvancesTransitive(st, head.state, rest.state);
      AllEdgesPersist(head.state.nm, rest.state.nm, active, head.out, rev[0].property, id);
      ReverseEdgesCons(rest.state.nm, active, id, rev, head.out, rest.out);
      AllGivePersist(gen, head.state, rest.state, active, rev[0].values, head.out);
      GiveCons(gen, rest.state, active, rev, head.out, rest.out);
      Ok(Step(rest.state, [head.out] + rest.out))
  }

  lemma GiveCons(gen: Generator, st: State, active: Option<Ref>, rev: seq<Entry<IndexedNode>>, head: seq<Ref>, rest: seq<seq<Ref>>)
    requires |rev| > 0 && |rest| == |rev| - 1 && AllGive(gen, st, active, rev[0].values, head)
    requires forall i :: 0 <= i < |rev| - 1 ==> AllGive(gen, st, active, rev[1..][i].values, rest[i])
    ensures forall i :: 0 <= i < |rev| ==> AllGive(gen, st, active, rev[i].values, ([head] + rest)[i])
  {
    var out := [head] + rest;
    assert forall i :: 1 <= i < |rev| ==> out[i] == rest[i - 1] && rev[i] == rev[1..][i - 1];
  }

  /** Subjects described under the identifiers that carry the edges are described subjects. */
  lemma ReverseFrom(gen: Generator, st: State, active: Option<Ref>, id: Ref, rev: seq<Entry<IndexedNode>>, subjects: seq<seq<Ref>>)
    requires ReverseEdges(st.nm, active, id, rev, subjects)
    requires forall i :: 0 <= i < |rev| ==> AllGive(gen, st, active, rev[i].values, subjects[i])
    ensures forall i :: 0 <= i < |rev| ==> SubjectsDescribed(gen, st, active, rev[i].values, rev[i].property, id)
  {
    forall i, k | 0 <= i < |rev| && 0 <= k < |rev[i].values|
      ensures SubjectOf(gen, st, active, rev[i].values[k], rev[i].property, id)
    {
      assert AllGive(gen, st, active, rev[i].values, subjects[i]);
      assert Gives(gen, st, active, rev[i].values[k], subjects[i][k]);
      assert HasEdge(st.nm, active, subjects[i][k], rev[i].property, id);
    }
  }

  /** The subjects identified by an IRI or an invalid reference get their edges under that identifier. */
  lemma IdentifiedSubjects(nm: NodeMap, active: Option<Ref>, id: Ref, rev: seq<Entry<IndexedNode>>, subjects: seq<seq<Ref>>)
    requires ReverseEdges(nm, active, id, rev, subjects)
    ensures forall i, j :: 0 <= i < |rev| && 0 <= j < |rev[i].values| && Identified(rev[i].values[j].inner) ==>
      HasEdge(nm, active, rev[i].values[j].inner.id.value, rev[i].property, id)
  {
    forall i, j | 0 <= i < |rev| && 0 <= j < |rev[i].values| && Identified(rev[i].values[j].inner)
      ensures HasEdge(nm, active, rev[i].values[j].inner.id.value, rev[i].property, id)
    {
      assert KeepsIds(rev[i].values, subjects[i]);
      assert subjects[i][j] == rev[i].values[j].inner.id.value;
    }
  }

  /** `r` with `x` put in front of its flattened objects; an error stays as it is. */
  function Prepend(x: IndexedFlat, r: Result<Step<seq<IndexedFlat>>, ConflictingIndexes>): Result<Step<seq<IndexedFlat>>, ConflictingIndexes> {
    match r
    case Err(e) => Err(e)
    case Ok(t) => Ok(Step(t.state, [x] + t.out))
  }

  /**
    After the walk `r` over some objects, the walk over `b` from where `r`
    left off, with both outputs joined; the first error is the result.
   */
  function Continue(gen: Generator, r: Result<Step<seq<IndexedFlat>>, ConflictingIndexes>, b: seq<IndexedObject>, active: Option<Ref>)
    : Result<Step<seq<IndexedFlat>>, ConflictingIndexes>
    requires r.Ok? ==> GraphOf(r.value.state.nm, active).Some?
  {
    match r
    case Err(e) => Err(e)
    case Ok(first) => Join(first, ExtendSeq(gen, first.state, b, active))
  }

  /** The outputs of `first` and then `second` joined, in the state `second` ends in; an error of `second` stays. */
  function Join(first: Step<seq<IndexedFlat>>, second: Result<Step<seq<IndexedFlat>>, ConflictingIndexes>): Result<Step<seq<IndexedFlat>>, ConflictingIndexes> {
    match second
    case Err(e) => Err(e)
    case Ok(s) => Ok(Step(s.state, first.out + s.out))
  }

  lemma JoinPrepend(x: IndexedFlat, first: Step<seq<IndexedFlat>>, second: Result<Step<seq<IndexedFlat>>, ConflictingIndexes>)
    ensures Prepend(x, Join(first, second)) == Join(Step(first.state, [x] + first.out), second)
  {
    if second.Ok? {
      assert [x] + (first.out + second.value.out) == ([x] + first.out) + second.value.out;
    }
  }

  /** Flattening a concatenation flattens the first part, then the second from where the first left off. */
  lemma {:induction false} ExtendSeqAppend(gen: Generator, st: State, a: seq<IndexedObject>, b: seq<IndexedObject>, active: Option<Ref>)
    requires GraphOf(st.nm, active).Some?
    ensures ExtendSeq(gen, st, a + b, active) == Continue(gen, ExtendSeq(gen, st, a, active), b, active)
    decreases |a|
  {
    if |a| == 0 {
      ExtendSeqAppendEmpty(gen, st, a, b, active);
    } else {
      var head := Extend(gen, st, a[0], active);
      if head.Ok? {
        var h := head.value;
        GrowsKeepsGraph(st.nm, h.state.nm, active);
        calc {
          ExtendSeq(gen, st, a + b, active);
          { ExtendSeqConsAppend(gen, st, a, b, active); }
          Prepend(h.out, ExtendSeq(gen, h.state, a[1..] + b, active));
          { ExtendSeqAppend(gen, h.state, a[1..], b, active); }
          Prepend(h.out, Continue(gen, ExtendSeq(gen, h.state, a[1..], active), b, active));
          { ContinuePrepend(gen, h.out, ExtendSeq(gen, h.state, a[1..], active), b, active); }
          Continue(gen, Prepend(h.out, ExtendSeq(gen, h.state, a[1..], active)), b, active);
          { ExtendSeqCons(gen, st, a, active); }
          Continue(gen, ExtendSeq(gen, st, a, active), b, active);
        }
      } else {
        assert (a + b)[0] == a[0];
      }
    }
  }

  lemma ExtendSeqConsAppend(gen: Generator, st: State, a: seq<IndexedObject>, b: seq<IndexedObject>, active: Option<Ref>)
    requires GraphOf(st.nm, active).Some? && |a| > 0 && Extend(gen, st, a[0], active).Ok?
    ensures GraphOf(Extend(gen, st, a[0], active).value.state.nm, active).Some?
    ensures ExtendSeq(gen, st, a + b, active)
         == Prepend(Extend(gen, st, a[0], active).value.out, ExtendSeq(gen, Extend(gen, st, a[0], active).value.state, a[1..] + b, active))
  {
    assert (a + b)[0] == a[0] && (a + b)[1..] == a[1..] + b;
    ExtendSeqCons(gen, st, a + b, active);
  }

  lemma ExtendSeqAppendEmpty(gen: Generator, st: State, a: seq<IndexedObject>, b: seq<IndexedObject>, active: Option<Ref>)
    requires GraphOf(st.nm, active).Some? && |a| == 0
    ensures ExtendSeq(gen, st, a + b, active) == Continue(gen, ExtendSeq(gen, st, a, active), b, active)
  {
    assert a + b == b;
    assert ExtendSeq(gen, st, a, active) == Ok(Step(st, []));
    var second := ExtendSeq(gen, st, b, active);
    if second.Ok? {
      assert [] + second.value.out == second.value.out;
    }
  }

  /** Flattening a sequence whose first object flattens is that object's result put in front of the rest's. */
  lemma ExtendSeqCons(gen: Generator, st: State, items: seq<IndexedObject>, active: Option<Ref>)
    requires GraphOf(st.nm, active).Some? && |items| > 0 && Extend(gen, st, items[0], active).Ok?
    ensures GraphOf(Extend(gen, st, items[0], active).value.state.nm, active).Some?
    ensures ExtendSeq(gen, st, items, active)
         == Prepend(Extend(gen, st, items[0], active).value.out, ExtendSeq(gen, Extend(gen, st, items[0], active).value.state, items[1..], active))
  {
    GrowsKeepsGraph(st.nm, Extend(gen, st, items[0], active).value.state.nm, active);
  }

  lemma ContinuePrepend(gen: Generator, x: IndexedFlat, r: Result<Step<seq<IndexedFlat>>, ConflictingIndexes>, b: seq<IndexedObject>, active: Option<Ref>)
    requires r.Ok? ==> GraphOf(r.value.state.nm, active).Some?
    ensures Prepend(x, Continue(gen, r, b, active)) == Continue(gen, Prepend(x, r), b, active)
  {
    if r.Ok? {
      JoinPrepend(x, r.value, ExtendSeq(gen, r.value.state, b, active));
    }
  }

  /**
    `generate_node_map`: every element of the document is flattened in order
    into the default graph, starting from an empty node map and a namespace
    that has renamed nothing; the first index conflict is the result.
   */
  function GenerateNodeMap(gen: Generator, doc: seq<IndexedObject>): (r: Result<NodeMap, ConflictingIndexes>)
    ensures r.Err? ==> IndexesDiffer(r.error)
    ensures r.Ok? ==> Sound(r.value) && AllWellKeyed(r.value)
    ensures r.Ok? ==> forall i :: 0 <= i < |doc| && IdentifiedNode(doc[i]) ==> doc[i].inner.node.id.value in r.value.default.nodes
    ensures r.Ok? ==> exists ns: Namespace, out: seq<IndexedFlat> ::
      (FreshBlanks(gen) ==> Good(gen, ns)) && AllFlattened(gen, State(ns, r.value), None, doc, out)
    ensures AllUnindexed(doc) ==> r.Ok?
  {
    EmptySound();
    var flat :- ExtendSeq(gen, State(Fresh, NodeMaps.Empty), doc, None);
    SoundIsWellKeyed(flat.state.nm);
    TopLevelNodesRecorded(doc, flat.out, KeysOf(flat.state.nm, None));
    assert Good(gen, Fresh);
    assert AllFlattened(gen, State(flat.state.ns, flat.state.nm), None, doc, flat.out);
    Ok(flat.state.nm)
  }

  /**
    Distinct source identifiers get distinct canonical identifiers: under a
    generator of fresh blank identifiers, two top-level node objects with
    different explicit identifiers become references to two different
    records of the default graph.
   */
  lemma DocumentDistinctNodes(gen: Generator, doc: seq<IndexedObject>, i: nat, j: nat)
    requires FreshBlanks(gen) && GenerateNodeMap(gen, doc).Ok?
    requires i < |doc| && j < |doc| && doc[i].inner.NodeObject? && doc[j].inner.NodeObject?
    requires doc[i].inner.node.id.Some? && doc[j].inner.node.id.Some? && doc[i].inner.node.id != doc[j].inner.node.id
    ensures exists a: Ref, b: Ref :: a != b && a in GenerateNodeMap(gen, doc).value.default.nodes && b in GenerateNodeMap(gen, doc).value.default.nodes
  {
    var nm := GenerateNodeMap(gen, doc).value;
    var ns, out :| (FreshBlanks(gen) ==> Good(gen, ns)) && AllFlattened(gen, State(ns, nm), None, doc, out);
    DistinctIdsDistinctRefs(gen, State(ns, nm), None, doc, out, i, j);
  }

  /** In any state reached under a fresh-blank generator, two node objects with different explicit identifiers flatten to references to two different records. */
  lemma DistinctIdsDistinctRefs(gen: Generator, st: State, active: Option<Ref>, items: seq<IndexedObject>, out: seq<IndexedFlat>, i: nat, j: nat)
    requires FreshBlanks(gen) && Good(gen, st.ns) && AllFlattened(gen, st, active, items, out)
    requires i < |items| && j < |items| && items[i].inner.NodeObject? && items[j].inner.NodeObject?
    requires items[i].inner.node.id.Some? && items[j].inner.node.id.Some? && items[i].inner.node.id != items[j].inner.node.id
    ensures out[i].inner.FlatRef? && out[j].inner.FlatRef? && out[i].inner.id != out[j].inner.id
    ensures Holds(st.nm, active, out[i].inner.id) && Holds(st.nm, active, out[j].inner.id)
  {
    assert Flattened(gen, st, active, items[i], out[i]) && Flattened(gen, st, active, items[j], out[j]);
    NamesDistinct(gen, st.ns, items[i].inner.node.id.value, items[j].inner.node.id.value, out[i].inner.id, out[j].inner.id);
    assert Described(gen, st, active, items[i].inner.node, out[i].inner.id);
    assert Described(gen, st, active, items[j].inner.node, out[j].inner.id);
  }

  /**
    An index conflict anywhere in the document ends the walk: when two node
    objects of the document name the same IRI with two different indexes,
    generating the node map fails.
   */
  lemma DocumentIndexedTwice(gen: Generator, doc: seq<IndexedObject>, i: nat, j: nat)
    requires i < j < |doc| && IdentifiedNode(doc[i]) && IdentifiedNode(doc[j])
    requires doc[i].inner.node.id == doc[j].inner.node.id
    requires doc[i].index.Some? && doc[j].index.Some? && doc[i].index != doc[j].index
    ensures GenerateNodeMap(gen, doc).Err?
  {
    assert doc[0..] == doc;
    IndexedTwice(gen, State(Fresh, NodeMaps.Empty), doc, 0, None, i, j);
  }

  /** The same, for the walk over the objects of `items` from position `s` on, in any graph. */
  lemma {:induction false} IndexedTwice(gen: Generator, st: State, items: seq<IndexedObject>, s: nat, active: Option<Ref>, i: nat, j: nat)
    requires s <= i < j < |items| && IdentifiedNode(items[i]) && IdentifiedNode(items[j])
    requires items[i].inner.node.id == items[j].inner.node.id
    requires items[i].index.Some? && items[j].index.Some? && items[i].index != items[j].index
    requires GraphOf(st.nm, active).Some?
    ensures ExtendSeq(gen, st, items[s..], active).Err?
    decreases i - s
  {
    if Extend(gen, st, items[s], active).Err? {
      HeadFails(gen, st, items, s, active);
    } else {
      var next := Extend(gen, st, items[s], active).value.state;
      TailFails(gen, st, items, s, active);
      if i == s {
        IndexRecorded(gen, st, items[s], active);
        StoredIndexConflicts(gen, next, items, s + 1, active, j, items[s].index.value);
      } else {
        IndexedTwice(gen, next, items, s + 1, active, i, j);
      }
    }
  }

  /** A node object identified by an IRI that flattens leaves its index on the record of that IRI. */
  lemma IndexRecorded(gen: Generator, st: State, element: IndexedObject, active: Option<Ref>)
    requires GraphOf(st.nm, active).Some? && IdentifiedNode(element) && element.index.Some?
    requires Extend(gen, st, element, active).Ok?
    ensures Holds(Extend(gen, st, element, active).value.state.nm, active, element.inner.node.id.value)
    ensures RecordOf(Extend(gen, st, element, active).value.state.nm, active, element.inner.node.id.value).index == element.index
  {
    var flat := ExtendNode(gen, st, element.inner.node, element.index, active);
    assert flat.Ok? && Extend(gen, st, element, active).value.state == flat.value.state;
  }

  /**
    Once the record of a node carries index `x`, a node object at position
    `j` of `items` naming the same IRI with another index makes the walk from
    position `s` on fail.
   */
  lemma {:induction false} StoredIndexConflicts(gen: Generator, st: State, items: seq<IndexedObject>, s: nat, active: Option<Ref>, j: nat, x: string)
    requires s <= j < |items| && IdentifiedNode(items[j])
    requires Holds(st.nm, active, items[j].inner.node.id.value)
    requires RecordOf(st.nm, active, items[j].inner.node.id.value).index == Some(x)
    requires items[j].index.Some? && items[j].index != Some(x)
    ensures ExtendSeq(gen, st, items[s..], active).Err?
    decreases j - s
  {
    if j == s {
      var node := items[s].inner.node;
      assert Conflicts(GraphOf(st.nm, active).value, Assign(gen, st.ns, node.id).1, items[s].index);
      assert ExtendNode(gen, st, node, items[s].index, active).Err?;
      HeadFails(gen, st, items, s, active);
    } else if Extend(gen, st, items[s], active).Err? {
      HeadFails(gen, st, items, s, active);
    } else {
      var next := Extend(gen, st, items[s], active).value.state;
      GrowsKeeps(st.nm, next.nm, active, items[j].inner.node.id.value);
      TailFails(gen, st, items, s, active);
      StoredIndexConflicts(gen, next, items, s + 1, active, j, x);
    }
  }

  /** The walk over the objects from position `s` on fails when the object at `s` fails. */
  lemma HeadFails(gen: Generator, st: State, items: seq<IndexedObject>, s: nat, active: Option<Ref>)
    requires GraphOf(st.nm, active).Some? && s < |items| && Extend(gen, st, items[s], active).Err?
    ensures ExtendSeq(gen, st, items[s..], active).Err?
  {
    assert items[s..][0] == items[s];
  }

  /**
    When the object at position `s` flattens, the walk from `s` on fails
    exactly when the walk from `s + 1` on, started where that object left
    off, fails.
   */
  lemma TailFails(gen: Generator, st: State, items: seq<IndexedObject>, s: nat, active: Option<Ref>)
    requires GraphOf(st.nm, active).Some? && s < |items| && Extend(gen, st, items[s], active).Ok?
    ensures GraphOf(Extend(gen, st, items[s], active).value.state.nm, active).Some?
    ensures ExtendSeq(gen, Extend(gen, st, items[s], active).value.state, items[s + 1..], active).Err?
        <==> ExtendSeq(gen, st, items[s..], active).Err?
  {
    assert items[s..][0] == items[s] && items[s..][1..] == items[s + 1..];
    ExtendSeqCons(gen, st, items[s..], active);
  }

  /** A node object with an identifier that is not a blank node label. */
  predicate IdentifiedNode(o: IndexedObject) {
    o.inner.NodeObject? && Identified(o.inner.node)
  }

  lemma TopLevelNodesRecorded(doc: seq<IndexedObject>, out: seq<IndexedFlat>, keys: set<Ref>)
    requires FlattenedSeq(doc, out, keys)
    ensures forall i :: 0 <= i < |doc| && IdentifiedNode(doc[i]) ==> doc[i].inner.node.id.value in keys
  {
    forall i | 0 <= i < |doc| && IdentifiedNode(doc[i])
      ensures doc[i].inner.node.id.value in keys
    {
      assert Corresponds(doc[i], out[i]);
      assert out[i] in out;
      assert doc[i].inner.node.id.value in Refs(out[i]);
    }
  }
}

=== FILE: invariants.dfy ===
/**
  What flattening keeps true of a node map: records only grow (nothing is
  deleted, an index once set stays, graph content and property values are only
  added), and the map is sound (every record is stored under its own
  identifier, every node reference names a record of the graph it is read in,
  nested graph content lives in the named graph of the node, and no record
  carries reverse properties or included nodes).
 */
module Invariants {
  import opened Wrappers
  import opened Namespaces
  import opened Objects
  import opened UniqueInsert
  import opened NodeMapGraphs
  import opened NodeMaps

  /** `b` is `a` with possibly more: same identifier, index kept once set, more graph content and property values. */
  ghost predicate RecordGrows(a: FlatNode, b: FlatNode) {
    && b.id == a.id
    && (a.index.Some? ==> b.index == a.index)
    && (a.graph.Some? ==> b.graph.Some?)
    && GraphContent(a) <= GraphContent(b)
    && b.included == a.included
    && b.reverseProperties == a.reverseProperties
    && (forall p :: p in a.properties ==> p in b.properties && a.properties[p] <= b.properties[p])
  }

  /** No record of `a` is missing from `b`, and each one grew. */
  ghost predicate GraphGrows(a: Graph, b: Graph) {
    forall id :: id in a.nodes ==> id in b.nodes && RecordGrows(a.nodes[id], b.nodes[id])
  }

  /** No graph and no record of `a` is missing from `b`, and each record grew. */
  ghost predicate Grows(a: NodeMap, b: NodeMap) {
    && GraphGrows(a.default, b.default)
    && (forall gid :: gid in a.named ==> gid in b.named && GraphGrows(a.named[gid], b.named[gid]))
  }

  lemma PrefixTransitive<T>(a: seq<T>, b: seq<T>, c: seq<T>)
    requires a <= b && b <= c
    ensures a <= c
  {
    assert a == b[..|a|];
    assert b[..|a|] == c[..|b|][..|a|];
  }

  lemma RecordGrowsTransitive(a: FlatNode, b: FlatNode, c: FlatNode)
    requires RecordGrows(a, b) && RecordGrows(b, c)
    ensures RecordGrows(a, c)
  {
    forall p | p in a.properties
      ensures a.properties[p] <= c.properties[p]
    {
      PrefixTransitive(a.properties[p], b.properties[p], c.properties[p]);
    }
  }

  lemma GraphGrowsTransitive(a: Graph, b: Graph, c: Graph)
    requires GraphGrows(a, b) && GraphGrows(b, c)
    ensures GraphGrows(a, c)
  {
    forall id | id in a.nodes
      ensures id in c.nodes && RecordGrows(a.nodes[id], c.nodes[id])
    {
      RecordGrowsTransitive(a.nodes[id], b.nodes[id], c.nodes[id]);
    }
  }

  lemma GrowsTransitive(a: NodeMap, b: NodeMap, c: NodeMap)
    requires Grows(a, b) && Grows(b, c)
    ensures Grows(a, c)
  {
    GraphGrowsTransitive(a.default, b.default, c.default);
    forall gid | gid in a.named
      ensures gid in c.named && GraphGrows(a.named[gid], c.named[gid])
    {
      GraphGrowsTransitive(a.named[gid], b.named[gid], c.named[gid]);
    }
  }

  lemma GrowsReflexive(a: NodeMap)
    ensures Grows(a, a)
  {
  }

  /** The identifiers of the records of graph `id`, or none if it does not exist. */
  function KeysOf(nm: NodeMap, id: Option<Ref>): set<Ref> {
    if GraphOf(nm, id).Some? then GraphOf(nm, id).value.nodes.Keys else {}
  }

  /** Graph `active` exists and has a record for `id`. */
  predicate Holds(nm: NodeMap, active: Option<Ref>, id: Ref) {
    GraphOf(nm, active).Some? && id in GraphOf(nm, active).value.nodes
  }

  /** The record for `id` in graph `active`. */
  function RecordOf(nm: NodeMap, active: Option<Ref>, id: Ref): FlatNode
    requires Holds(nm, active, id)
  {
    GraphOf(nm, active).value.nodes[id]
  }

  lemma GrowsKeepsGraph(a: NodeMap, b: NodeMap, active: Option<Ref>)
    requires Grows(a, b)
    ensures GraphOf(a, active).Some? ==> GraphOf(b, active).Some? && KeysOf(a, active) <= KeysOf(b, active)
  {
  }

  lemma GrowsKeeps(a: NodeMap, b: NodeMap, active: Option<Ref>, id: Ref)
    requires Grows(a, b)
    ensures GraphOf(a, active).Some? ==> GraphOf(b, active).Some? && KeysOf(a, active) <= KeysOf(b, active)
    ensures Holds(a, active, id) ==> Holds(b, active, id) && RecordGrows(RecordOf(a, active, id), RecordOf(b, active, id))
  {
  }

  /** Every node reference of the flattened objects in `s` is among `keys`. */
  ghost predicate SeqWithin(s: seq<IndexedFlat>, keys: set<Ref>) {
    forall x :: x in s ==> Refs(x) <= keys
  }

  ghost predicate SetWithin(s: set<IndexedFlat>, keys: set<Ref>) {
    forall x :: x in s ==> Refs(x) <= keys
  }

  ghost predicate PropertiesWithin(props: map<Ref, seq<IndexedFlat>>, keys: set<Ref>) {
    forall p, x :: p in props && x in props[p] ==> Refs(x) <= keys
  }

  /** The record stored under `id` in graph `g` of `nm` is sound. */
  ghost predicate RecordSound(nm: NodeMap, g: Graph, id: Ref, n: FlatNode) {
    && n.id == Some(id)
    && n.included.None?
    && n.reverseProperties == map[]
    && PropertiesWithin(n.properties, g.nodes.Keys)
    && (n.graph.Some? ==> id in nm.named && SetWithin(n.graph.value, nm.named[id].nodes.Keys))
  }

  ghost predicate GraphSound(nm: NodeMap, g: Graph) {
    forall id :: id in g.nodes ==> RecordSound(nm, g, id, g.nodes[id])
  }

  /** Every graph of `nm` is sound. */
  ghost predicate Sound(nm: NodeMap) {
    && GraphSound(nm, nm.default)
    && (forall gid :: gid in nm.named ==> GraphSound(nm, nm.named[gid]))
  }

  /** A sound node map has every record stored under its own identifier. */
  lemma SoundIsWellKeyed(nm: NodeMap)
    requires Sound(nm)
    ensures AllWellKeyed(nm)
  {
    assert WellKeyed(nm.default) by {
      forall id | id in nm.default.nodes ensures nm.default.nodes[id].id == Some(id) {
        assert RecordSound(nm, nm.default, id, nm.default.nodes[id]);
      }
    }
    forall gid | gid in nm.named
      ensures WellKeyed(nm.named[gid])
    {
      var g := nm.named[gid];
      forall id | id in g.nodes ensures g.nodes[id].id == Some(id) {
        assert RecordSound(nm, g, id, g.nodes[id]);
      }
    }
  }

  lemma EmptySound()
    ensures Sound(NodeMaps.Empty)
  {
  }

  /** Stores `n` as the record for `id` in graph `active`, which must exist. */
  function SetRecord(nm: NodeMap, active: Option<Ref>, id: Ref, n: FlatNode): (r: NodeMap)
    requires GraphOf(nm, active).Some?
    ensures Holds(r, active, id) && RecordOf(r, active, id) == n
    ensures r.named.Keys == nm.named.Keys
    ensures forall a :: a != active ==> GraphOf(r, a) == GraphOf(nm, a)
    ensures KeysOf(r, active) == KeysOf(nm, active) + {id}
    ensures forall k :: k != id && Holds(nm, active, k) ==> Holds(r, active, k) && RecordOf(r, active, k) == RecordOf(nm, active, k)
  {
    var g := GraphOf(nm, active).value;
    PutGraph(nm, active, Graph(g.nodes[id := n]))
  }

  /** Storing a record that grew from the one stored before (if any) makes the node map grow. */
  lemma SetRecordGrows(nm: NodeMap, active: Option<Ref>, id: Ref, n: FlatNode)
    requires GraphOf(nm, active).Some?
    requires Holds(nm, active, id) ==> RecordGrows(RecordOf(nm, active, id), n)
    ensures Grows(nm, SetRecord(nm, active, id, n))
  {
    var r := SetRecord(nm, active, id, n);
    if active.None? {
      assert r.named == nm.named;
    } else {
      assert r.default == nm.default;
      forall gid | gid in nm.named
        ensures gid in r.named && GraphGrows(nm.named[gid], r.named[gid])
      {
        if gid != active.value {
          assert GraphOf(r, Some(gid)) == GraphOf(nm, Some(gid));
        }
      }
    }
  }

  /** Sound records stay sound when the graphs they refer to gain records. */
  lemma RecordSoundWider(nm: NodeMap, g: Graph, r: NodeMap, g': Graph, id: Ref, n: FlatNode)
    requires RecordSound(nm, g, id, n)
    requires g.nodes.Keys <= g'.nodes.Keys
    requires nm.named.Keys <= r.named.Keys
    requires id in nm.named ==> KeysOf(nm, Some(id)) <= KeysOf(r, Some(id))
    ensures RecordSound(r, g', id, n)
  {
    if n.graph.Some? {
      assert KeysOf(nm, Some(id)) == nm.named[id].nodes.Keys;
      assert KeysOf(r, Some(id)) == r.named[id].nodes.Keys;
    }
  }

  /**
    Storing a record that is sound in the resulting node map keeps the node
    map sound: every other record refers to sets of identifiers that only grew.
   */
  lemma SetRecordSound(nm: NodeMap, active: Option<Ref>, id: Ref, n: FlatNode)
    requires Sound(nm) && GraphOf(nm, active).Some?
    requires RecordSound(SetRecord(nm, active, id, n), GraphOf(SetRecord(nm, active, id, n), active).value, id, n)
    ensures Sound(SetRecord(nm, active, id, n))
  {
    var r := SetRecord(nm, active, id, n);
    forall a: Option<Ref> | GraphOf(r, a).Some?
      ensures KeysOf(nm, a) <= KeysOf(r, a)
    {
    }
    forall a: Option<Ref>, k | GraphOf(r, a).Some? && k in GraphOf(r, a).value.nodes
      ensures RecordSound(r, GraphOf(r, a).value, k, GraphOf(r, a).value.nodes[k])
    {
      var g' := GraphOf(r, a).value;
      if a == active && k == id {
      } else {
        var g := GraphOf(nm, a).value;
        assert g'.nodes[k] == g.nodes[k];
        if a.None? {
          assert GraphSound(nm, nm.default);
        } else {
          assert GraphSound(nm, nm.named[a.value]);
        }
        RecordSoundWider(nm, g, r, g', k, g.nodes[k]);
      }
    }
    assert GraphSound(r, r.default) by {
      forall k | k in r.default.nodes ensures RecordSound(r, r.default, k, r.default.nodes[k]) {
        assert GraphOf(r, None).value == r.default;
      }
    }
    forall gid | gid in r.named
      ensures GraphSound(r, r.named[gid])
    {
      forall k | k in r.named[gid].nodes ensures RecordSound(r, r.named[gid], k, r.named[gid].nodes[k]) {
        assert GraphOf(r, Some(gid)).value == r.named[gid];
      }
    }
  }

  /** `declare_graph` keeps the node map sound and makes it grow. */
  lemma DeclareGraphSound(nm: NodeMap, id: Ref)
    ensures Grows(nm, DeclareGraph(nm, id))
    ensures Sound(nm) ==> Sound(DeclareGraph(nm, id))
  {
    var r := DeclareGraph(nm, id);
    if id !in nm.named && Sound(nm) {
      forall a: Option<Ref>, k | GraphOf(r, a).Some? && k in GraphOf(r, a).value.nodes
        ensures RecordSound(r, GraphOf(r, a).value, k, GraphOf(r, a).value.nodes[k])
      {
        var g := GraphOf(nm, a).value;
        if a.None? {
          assert GraphSound(nm, nm.default);
        } else {
          assert GraphSound(nm, nm.named[a.value]);
        }
        assert RecordSound(nm, g, k, g.nodes[k]);
        RecordSoundWider(nm, g, r, g, k, g.nodes[k]);
      }
      assert GraphSound(r, r.default) by {
        forall k | k in r.default.nodes ensures RecordSound(r, r.default, k, r.default.nodes[k]) {
          assert GraphOf(r, None).value == r.default;
        }
      }
      forall gid | gid in r.named
        ensures GraphSound(r, r.named[gid])
      {
        forall k | k in r.named[gid].nodes ensures RecordSound(r, r.named[gid], k, r.named[gid].nodes[k]) {
          assert GraphOf(r, Some(gid)).value == r.named[gid];
        }
      }
    }
  }
}

=== FILE: lang_string.dfy ===
/**
  Language-tagged strings (section 3.3 of RDF 1.1 Concepts), extended with the
  base direction of JSON-LD 1.1. A valid language string carries a language
  tag, a direction, or both; every constructor and setter keeps that invariant.
 */
module LangStrings {
  import opened Wrappers

  /** Base direction of a string. */
  datatype Direction = Ltr | Rtl

  /** Language tags are parsed leniently: any text is kept as the tag. */
  type LanguageTag = string

  datatype LangString = LangString(data: string, language: Option<LanguageTag>, direction: Option<Direction>) {

    /** The invariant of a language string: a tag or a direction is present. */
    predicate Valid() {
      language.Some? || direction.Some?
    }
  }

  /** Raised when an update would leave neither a tag nor a direction. */
  datatype InvalidLangString = InvalidLangString

  /** A setter's effect: the value afterwards and whether the update happened. */
  type Update = (LangString, Result<(), InvalidLangString>)

  /** Builds a language string; without tag and direction the text is handed back. */
  function New(data: string, language: Option<LanguageTag>, direction: Option<Direction>): (r: Result<LangString, string>)
    ensures r.Ok? <==> language.Some? || direction.Some?
    ensures r.Ok? ==> r.value.Valid()
    ensures r.Ok? ==> r.value.data == data && r.value.language == language && r.value.direction == direction
    ensures r.Err? ==> r.error == data
  {
    if language.Some? || direction.Some? then
      Ok(LangString(data, language, direction))
    else
      Err(data)
  }

  /** The three stored fields, in order. `parts` borrows the same fields. */
  function IntoParts(s: LangString): (string, Option<LanguageTag>, Option<Direction>) {
    (s.data, s.language, s.direction)
  }

  /** The text of the string. */
  function AsStr(s: LangString): string {
    s.data
  }

  /** The language tag, if any. */
  function Language(s: LangString): Option<LanguageTag> {
    s.language
  }

  /** The direction, if any. */
  function GetDirection(s: LangString): Option<Direction> {
    s.direction
  }

  /** Splitting a valid language string into its parts and rebuilding it gives it back. */
  lemma PartsRoundTrip(s: LangString)
    requires s.Valid()
    ensures New(IntoParts(s).0, IntoParts(s).1, IntoParts(s).2) == Ok(s)
    ensures AsStr(s) == IntoParts(s).0 && Language(s) == IntoParts(s).1 && GetDirection(s) == IntoParts(s).2
  {
  }

  /** Building a language string and reading its parts returns the inputs. */
  lemma NewThenParts(data: string, language: Option<LanguageTag>, direction: Option<Direction>)
    requires New(data, language, direction).Ok?
    ensures IntoParts(New(data, language, direction).value) == (data, language, direction)
  {
  }

  /** Sets the language tag; removing it is refused when there is no direction. */
  function SetLanguage(s: LangString, language: Option<LanguageTag>): (r: Update)
    ensures r.1.Err? <==> language.None? && s.direction.None?
    ensures r.1.Err? ==> r.0 == s
    ensures r.1.Ok? ==> r.0.language == language && r.0.data == s.data && r.0.direction == s.direction
    ensures r.1.Ok? ==> r.0.Valid()
  {
    if s.direction.Some? || language.Some? then
      (s.(language := language), Ok(()))
    else
      (s, Err(InvalidLangString))
  }

  /** Sets the direction; removing it is refused when there is no language tag. */
  function SetDirection(s: LangString, direction: Option<Direction>): (r: Update)
    ensures r.1.Err? <==> direction.None? && s.language.None?
    ensures r.1.Err? ==> r.0 == s
    ensures r.1.Ok? ==> r.0.direction == direction && r.0.data == s.data && r.0.language == s.language
    ensures r.1.Ok? ==> r.0.Valid()
  {
    if direction.Some? || s.language.Some? then
      (s.(direction := direction), Ok(()))
    else
      (s, Err(InvalidLangString))
  }

  /** Sets both fields at once, or neither when both would be absent. */
  function Set(s: LangString, language: Option<LanguageTag>, direction: Option<Direction>): (r: Update)
    ensures r.1.Err? <==> language.None? && direction.None?
    ensures r.1.Err? ==> r.0 == s
    ensures r.1.Ok? ==> r.0 == LangString(s.data, language, direction)
    ensures r.1.Ok? ==> r.0.Valid()
  {
    if direction.Some? || language.Some? then
      (s.(language := language, direction := direction), Ok(()))
    else
      (s, Err(InvalidLangString))
  }

  /** One call of a setter. */
  datatype Edit =
    | SetLanguageTo(language: Option<LanguageTag>)
    | SetDirectionTo(direction: Option<Direction>)
    | SetBoth(language: Option<LanguageTag>, direction: Option<Direction>)

  /** The value after a series of setter calls; a refused call leaves the value as it was. */
  function ApplyEdits(s: LangString, edits: seq<Edit>): LangString
    decreases |edits|
  {
    if |edits| == 0 then s
    else
      var next := match edits[0]
        case SetLanguageTo(l) => SetLanguage(s, l).0
        case SetDirectionTo(d) => SetDirection(s, d).0
        case SetBoth(l, d) => Set(s, l, d).0;
      ApplyEdits(next, edits[1..])
  }

  /** No series of setter calls can break the invariant. */
  lemma {:induction false} EditsPreserveValid(s: LangString, edits: seq<Edit>)
    requires s.Valid()
    ensures ApplyEdits(s, edits).Valid()
    decreases |edits|
  {
    if |edits| > 0 {
      var next := match edits[0]
        case SetLanguageTo(l) => SetLanguage(s, l).0
        case SetDirectionTo(d) => SetDirection(s, d).0
        case SetBoth(l, d) => Set(s, l, d).0;
      EditsPreserveValid(next, edits[1..]);
    }
  }

  /** Every language string built by `New` and then edited is valid. */
  lemma NewThenEditsValid(data: string, language: Option<LanguageTag>, direction: Option<Direction>, edits: seq<Edit>)
    requires New(data, language, direction).Ok?
    ensures ApplyEdits(New(data, language, direction).value, edits).Valid()
  {
    EditsPreserveValid(New(data, language, direction).value, edits);
  }

  /** The kinds of JSON value, as reported in errors. */
  datatype JsonKind = NullKind | BooleanKind | NumberKind | StringKind | ArrayKind | ObjectKind

  /** A JSON value. */
  datatype Json =
    | Null
    | Boolean(b: bool)
    | Number(lexical: string)
    | String(s: string)
    | Array(items: seq<Json>)
    | Object(entries: seq<(string, Json)>)
  {
    function Kind(): JsonKind {
      match this
      case Null => NullKind
      case Boolean(_) => BooleanKind
      case Number(_) => NumberKind
      case String(_) => StringKind
      case Array(_) => ArrayKind
      case Object(_) => ObjectKind
    }
  }

  /** Shape errors raised while reading an expanded value object. */
  datatype InvalidExpandedJson =
    | Unexpected(found: JsonKind, expected: JsonKind)
    | InvalidDirection
    | UnexpectedEntry

  /** A member of a value object is acceptable when absent or a string. */
  predicate AbsentOrString(j: Option<Json>) {
    j.None? || j.value.String?
  }

  /**
    The reader ends with `new(...).unwrap()`, which panics exactly when every
    check passed and there is neither a language nor a direction.
   */
  predicate ReachesUnwrapPanic(rest: seq<(string, Json)>, value: Json, language: Option<Json>, direction: Option<Json>) {
    value.String? && language.None? && direction.None? && |rest| == 0
  }

  /**
    Reads a language string from an expanded value object: `rest` holds the
    entries not yet consumed, `parseDirection` is the (external) direction parser.
   */
  function TryFromJson(
    rest: seq<(string, Json)>, value: Json, language: Option<Json>, direction: Option<Json>,
    parseDirection: string -> Option<Direction>
  ): (r: Result<LangString, InvalidExpandedJson>)
    requires !ReachesUnwrapPanic(rest, value, language, direction)
    ensures !value.String? ==> r == Err(Unexpected(value.Kind(), StringKind))
    ensures value.String? && !AbsentOrString(language) ==> r == Err(Unexpected(language.value.Kind(), StringKind))
    ensures value.String? && AbsentOrString(language) && !AbsentOrString(direction)
      ==> r == Err(Unexpected(direction.value.Kind(), StringKind))
    ensures r == Err(InvalidDirection) <==>
      value.String? && AbsentOrString(language) && direction.Some? && direction.value.String?
      && parseDirection(direction.value.s).None?
    ensures r == Err(UnexpectedEntry) <==>
      value.String? && AbsentOrString(language) && AbsentOrString(direction)
      && (direction.Some? ==> parseDirection(direction.value.s).Some?) && |rest| > 0
    ensures r.Ok? <==>
      value.String? && AbsentOrString(language) && AbsentOrString(direction)
      && (direction.Some? ==> parseDirection(direction.value.s).Some?) && |rest| == 0
    ensures r.Ok? ==> r.value.Valid() && r.value.data == value.s
    ensures r.Ok? ==> (r.value.language.Some? <==> language.Some?)
    ensures r.Ok? && language.Some? ==> r.value.language.value == language.value.s
    ensures r.Ok? ==> (r.value.direction.Some? <==> direction.Some?)
    ensures r.Ok? && direction.Some? ==> Some(r.value.direction.value) == parseDirection(direction.value.s)
  {
    if !value.String? then Err(Unexpected(value.Kind(), StringKind))
    else
      var data := value.s;
      if language.Some? && !language.value.String? then Err(Unexpected(language.value.Kind(), StringKind))
      else
        var tag := if language.Some? then Some(language.value.s) else None;
        if direction.Some? && !direction.value.String? then Err(Unexpected(direction.value.Kind(), StringKind))
        else if direction.Some? && parseDirection(direction.value.s).None? then Err(InvalidDirection)
        else
          var dir := if direction.Some? then parseDirection(direction.value.s) else None;
          if |rest| == 0 then
            var built := New(data, tag, dir);
            Ok(built.value)
          else
            Err(UnexpectedEntry)
  }
}

=== FILE: namespace.dfy ===
/**
  Node references and the identifier namespace of one flattening call. The
  namespace renames every blank node label once, through an injected generator
  of fresh identifiers, and remembers the choice so that later mentions of the
  same label get the same identifier; IRIs and invalid references pass through.
 */
module Namespaces {
  import opened Wrappers

  /** A node reference: an IRI, a blank node label, or an invalid reference kept for diagnostics. */
  datatype Ref = Iri(iri: string) | Blank(name: string) | Invalid(text: string)

  /** The injected generator: its n-th call returns `gen(n)`. */
  type Generator = nat -> Ref

  /** The namespace state: the labels renamed so far and the number of generator calls made. */
  datatype Namespace = Namespace(memo: map<string, Ref>, next: nat)

  /** A fresh namespace, as created at the start of a flattening call. */
  const Fresh := Namespace(map[], 0)

  /** Every renaming made in `a` is still in force in `b`, and `b` made no fewer generator calls. */
  ghost predicate Extends(a: Namespace, b: Namespace) {
    && a.next <= b.next
    && (forall l :: l in a.memo ==> l in b.memo && b.memo[l] == a.memo[l])
  }

  lemma ExtendsTransitive(a: Namespace, b: Namespace, c: Namespace)
    requires Extends(a, b) && Extends(b, c)
    ensures Extends(a, c)
  {
  }

  /** The identifier assigned to an optional source reference. */
  function Assign(gen: Generator, ns: Namespace, source: Option<Ref>): (r: (Namespace, Ref))
    ensures Extends(ns, r.0)
    ensures source.Some? && !source.value.Blank? ==> r == (ns, source.value)
    ensures source.None? ==> r.1 == gen(ns.next) && r.0.next == ns.next + 1
    ensures source.Some? && source.value.Blank? ==> source.value.name in r.0.memo && r.0.memo[source.value.name] == r.1
    ensures source.Some? && source.value.Blank? && source.value.name in ns.memo ==> r == (ns, ns.memo[source.value.name])
    ensures source.Some? && source.value.Blank? && source.value.name !in ns.memo ==>
      r.1 == gen(ns.next) && r.0 == Namespace(ns.memo[source.value.name := r.1], ns.next + 1)
  {
    match source
    case None => (ns.(next := ns.next + 1), gen(ns.next))
    case Some(Blank(name)) =>
      if name in ns.memo then (ns, ns.memo[name])
      else
        var id := gen(ns.next);
        (Namespace(ns.memo[name := id], ns.next + 1), id)
    case Some(r) => (ns, r)
  }

  /**
    The identifiers assigned to a sequence of references, in order: an IRI or
    invalid reference is kept, and a blank label gets the identifier the
    namespace remembers for it afterwards.
   */
  function AssignAll(gen: Generator, ns: Namespace, sources: seq<Ref>): (r: (Namespace, seq<Ref>))
    ensures Extends(ns, r.0)
    ensures |r.1| == |sources|
    ensures forall i :: 0 <= i < |sources| && !sources[i].Blank? ==> r.1[i] == sources[i]
    ensures forall i :: 0 <= i < |sources| && sources[i].Blank? ==>
      sources[i].name in r.0.memo && r.1[i] == r.0.memo[sources[i].name]
    decreases |sources|
  {
    if |sources| == 0 then (ns, [])
    else
      var (ns1, head) := Assign(gen, ns, Some(sources[0]));
      var (ns2, tail) := AssignAll(gen, ns1, sources[1..]);
      ExtendsTransitive(ns, ns1, ns2);
      var out := [head] + tail;
      assert forall i :: 1 <= i < |sources| ==> out[i] == tail[i - 1] && sources[i] == sources[1..][i - 1];
      (ns2, out)
  }

  /**
    Within one call the same source gives the same identifier: once a source
    has been assigned, every later state of the namespace assigns it the same
    identifier again, without changing the namespace.
   */
  lemma AssignStable(gen: Generator, ns: Namespace, later: Namespace, source: Ref)
    requires Extends(Assign(gen, ns, Some(source)).0, later)
    ensures Assign(gen, later, Some(source)) == (later, Assign(gen, ns, Some(source)).1)
  {
  }

  /**
    `id` is the identifier the namespace `ns` stands for a node whose source
    identifier is `source`: an IRI or invalid reference itself, the renaming
    of a blank node label, or, without source, an identifier the generator has
    produced.
   */
  ghost predicate Names(gen: Generator, ns: Namespace, source: Option<Ref>, id: Ref) {
    match source
    case None => exists k :: 0 <= k < ns.next && gen(k) == id
    case Some(Blank(name)) => name in ns.memo && ns.memo[name] == id
    case Some(r) => id == r
  }

  lemma NamesPersist(gen: Generator, a: Namespace, b: Namespace, source: Option<Ref>, id: Ref)
    requires Extends(a, b) && Names(gen, a, source, id)
    ensures Names(gen, b, source, id)
  {
    if source.None? {
      var k :| 0 <= k < a.next && gen(k) == id;
      assert 0 <= k < b.next;
    }
  }

  /** The identifier assigned to a source is the one every later state of the namespace stands for it. */
  lemma AssignNames(gen: Generator, ns: Namespace, source: Option<Ref>, later: Namespace)
    requires Extends(Assign(gen, ns, source).0, later)
    ensures Names(gen, later, source, Assign(gen, ns, source).1)
  {
    if source.None? {
      assert 0 <= ns.next < later.next && gen(ns.next) == Assign(gen, ns, source).1;
    }
  }

  /** Every renamed label maps to an identifier the generator has already produced. */
  ghost predicate Issued(gen: Generator, ns: Namespace) {
    forall l :: l in ns.memo ==> exists k :: 0 <= k < ns.next && ns.memo[l] == gen(k)
  }

  /** Distinct labels were renamed to distinct identifiers. */
  ghost predicate Injective(ns: Namespace) {
    forall l1, l2 :: l1 in ns.memo && l2 in ns.memo && l1 != l2 ==> ns.memo[l1] != ns.memo[l2]
  }

  /** A generator that never repeats itself and only produces blank node identifiers. */
  ghost predicate FreshBlanks(gen: Generator) {
    && (forall i, j :: i != j ==> gen(i) != gen(j))
    && (forall i :: gen(i).Blank?)
  }

  /** The namespace invariant, given a generator of fresh blank identifiers. */
  ghost predicate Good(gen: Generator, ns: Namespace) {
    Issued(gen, ns) && Injective(ns)
  }

  /** Under a generator of fresh blank identifiers, the step from `a` to `b` keeps the namespace invariant. */
  ghost predicate KeepsGood(gen: Generator, a: Namespace, b: Namespace) {
    FreshBlanks(gen) && Good(gen, a) ==> Good(gen, b)
  }

  lemma AssignKeepsGood(gen: Generator, ns: Namespace, source: Option<Ref>)
    requires FreshBlanks(gen) && Good(gen, ns)
    ensures Good(gen, Assign(gen, ns, source).0)
  {
    match source
    case None =>
      var ns' := Assign(gen, ns, source).0;
      forall l | l in ns'.memo
        ensures exists k :: 0 <= k < ns'.next && ns'.memo[l] == gen(k)
      {
        var k :| 0 <= k < ns.next && ns.memo[l] == gen(k);
        assert 0 <= k < ns'.next;
      }
    case Some(Blank(name)) =>
      if name !in ns.memo {
        var ns' := Assign(gen, ns, source).0;
        assert ns'.memo == ns.memo[name := gen(ns.next)];
        forall l | l in ns'.memo
          ensures exists k :: 0 <= k < ns'.next && ns'.memo[l] == gen(k)
        {
          if l == name {
            assert ns'.memo[l] == gen(ns.next);
          } else {
            var k :| 0 <= k < ns.next && ns.memo[l] == gen(k);
            assert ns'.memo[l] == gen(k);
          }
        }
        forall l1, l2 | l1 in ns'.memo && l2 in ns'.memo && l1 != l2
          ensures ns'.memo[l1] != ns'.memo[l2]
        {
          if l1 == name {
            var k :| 0 <= k < ns.next && ns.memo[l2] == gen(k);
            assert gen(ns.next) != gen(k);
          } else if l2 == name {
            var k :| 0 <= k < ns.next && ns.memo[l1] == gen(k);
            assert gen(ns.next) != gen(k);
          }
        }
      }
    case Some(_) =>
  }

  lemma {:induction false} AssignAllKeepsGood(gen: Generator, ns: Namespace, sources: seq<Ref>)
    requires FreshBlanks(gen) && Good(gen, ns)
    ensures Good(gen, AssignAll(gen, ns, sources).0)
    decreases |sources|
  {
    if |sources| > 0 {
      AssignKeepsGood(gen, ns, Some(sources[0]));
      AssignAllKeepsGood(gen, Assign(gen, ns, Some(sources[0])).0, sources[1..]);
    }
  }

  /**
    Identifier determinism: under a generator of fresh blank identifiers,
    assigning two different explicit references one after the other yields two
    different identifiers.
   */
  lemma DistinctSourcesDistinctIds(gen: Generator, ns: Namespace, a: Ref, b: Ref)
    requires FreshBlanks(gen) && Good(gen, ns)
    requires a != b
    ensures Assign(gen, ns, Some(a)).1 != Assign(gen, Assign(gen, ns, Some(a)).0, Some(b)).1
  {
    var (ns1, ra) := Assign(gen, ns, Some(a));
    var (ns2, rb) := Assign(gen, ns1, Some(b));
    AssignKeepsGood(gen, ns, Some(a));
    AssignKeepsGood(gen, ns1, Some(b));
    if a.Blank? {
      var k :| 0 <= k < ns2.next && ns2.memo[a.name] == gen(k);
      if b.Blank? {
        assert ns2.memo[a.name] == ra;
      } else {
        assert ra == gen(k);
      }
    } else if b.Blank? {
      var k :| 0 <= k < ns2.next && ns2.memo[b.name] == gen(k);
      assert rb == gen(k);
    }
  }

  /**
    Under a generator of fresh blank identifiers, the identifiers a namespace
    stands for two different explicit references are different: an IRI or
    invalid reference is never a generator output, and two blank labels are
    never renamed alike.
   */
  lemma NamesDistinct(gen: Generator, ns: Namespace, a: Ref, b: Ref, x: Ref, y: Ref)
    requires FreshBlanks(gen) && Good(gen, ns) && a != b
    requires Names(gen, ns, Some(a), x) && Names(gen, ns, Some(b), y)
    ensures x != y
  {
    if a.Blank? {
      var k :| 0 <= k < ns.next && ns.memo[a.name] == gen(k);
      assert x.Blank?;
    }
    if b.Blank? {
      var k :| 0 <= k < ns.next && ns.memo[b.name] == gen(k);
      assert y.Blank?;
    }
  }
}

=== FILE: node_map.dfy ===
/**
  A node map: the default graph plus one named graph per node whose nested
  graph content has been flattened, keyed by that node's identifier.
 */
module NodeMaps {
  import opened Wrappers
  import opened Namespaces
  import opened Objects
  import opened UniqueInsert
  import opened NodeMapGraphs

  datatype NodeMap = NodeMap(named: map<Ref, Graph>, default: Graph)

  /** A node map with an empty default graph and no named graph. */
  const Empty := NodeMap(map[], NodeMapGraphs.Empty)

  /** `graph`: the default graph for `None`, the named graph for `Some(id)` if declared. */
  function GraphOf(nm: NodeMap, id: Option<Ref>): (r: Option<Graph>)
    ensures id.None? ==> r == Some(nm.default)
    ensures id.Some? ==> (r.Some? <==> id.value in nm.named)
    ensures id.Some? && r.Some? ==> r.value == nm.named[id.value]
  {
    match id
    case None => Some(nm.default)
    case Some(gid) => if gid in nm.named then Some(nm.named[gid]) else None
  }

  /** Writing back through `graph_mut`: replaces the graph `id`, which must exist. */
  function PutGraph(nm: NodeMap, id: Option<Ref>, g: Graph): (r: NodeMap)
    requires GraphOf(nm, id).Some?
    ensures GraphOf(r, id) == Some(g)
    ensures forall other :: other != id ==> GraphOf(r, other) == GraphOf(nm, other)
    ensures r.named.Keys == nm.named.Keys
  {
    match id
    case None => nm.(default := g)
    case Some(gid) => nm.(named := nm.named[gid := g])
  }

  /** `declare_graph`: adds an empty named graph `id` unless there is one already. */
  function DeclareGraph(nm: NodeMap, id: Ref): (r: NodeMap)
    ensures GraphOf(r, Some(id)).Some?
    ensures id in nm.named ==> r == nm
    ensures id !in nm.named ==> GraphOf(r, Some(id)) == Some(NodeMapGraphs.Empty)
    ensures forall other :: other != Some(id) ==> GraphOf(r, other) == GraphOf(nm, other)
    ensures r.named.Keys == nm.named.Keys + {id}
  {
    if id in nm.named then nm else nm.(named := nm.named[id := NodeMapGraphs.Empty])
  }

  /** Declaring the same graph twice is declaring it once. */
  lemma DeclareGraphIdempotent(nm: NodeMap, id: Ref)
    ensures DeclareGraph(DeclareGraph(nm, id), id) == DeclareGraph(nm, id)
  {
  }

  /** The node map after `declare_graph` has been called for each of `ids`, in order. */
  function DeclareGraphs(nm: NodeMap, ids: seq<Ref>): NodeMap
    decreases |ids|
  {
    if |ids| == 0 then nm else DeclareGraphs(DeclareGraph(nm, ids[0]), ids[1..])
  }

  /**
    Starting from an empty node map, `graph(None)` is always present and
    `graph(Some(x))` is present exactly when `declare_graph(x)` was called.
   */
  lemma {:induction false} GraphPresentIffDeclared(nm: NodeMap, ids: seq<Ref>, x: Ref)
    ensures GraphOf(DeclareGraphs(nm, ids), None).Some?
    ensures GraphOf(DeclareGraphs(nm, ids), Some(x)).Some? <==> x in nm.named || x in ids
    ensures x in nm.named ==> GraphOf(DeclareGraphs(nm, ids), Some(x)) == GraphOf(nm, Some(x))
    decreases |ids|
  {
    if |ids| > 0 {
      GraphPresentIffDeclared(DeclareGraph(nm, ids[0]), ids[1..], x);
      assert x in ids <==> x == ids[0] || x in ids[1..];
    }
  }

  /** Every node identifier of every named graph. */
  ghost function NamedIds(nm: NodeMap): set<Ref> {
    set gid, id | gid in nm.named && id in nm.named[gid].nodes :: id
  }

  /** Every graph of the node map stores each record under its own identifier. */
  ghost predicate AllWellKeyed(nm: NodeMap) {
    && WellKeyed(nm.default)
    && forall gid :: gid in nm.named ==> WellKeyed(nm.named[gid])
  }

  /** Folds the named graphs listed in `order` into `acc`, one after the other. */
  function MergeGraphs(acc: Graph, named: map<Ref, Graph>, order: seq<Ref>): (r: Graph)
    requires forall i :: 0 <= i < |order| ==> order[i] in named && WellKeyed(named[order[i]])
    ensures r.nodes.Keys == acc.nodes.Keys + set gid, id | gid in order && id in named[gid].nodes :: id
    ensures WellKeyed(acc) ==> WellKeyed(r)
    decreases |order|
  {
    if |order| == 0 then acc
    else
      var r := MergeGraphs(MergeWith(acc, named[order[0]]), named, order[1..]);
      IdsOfCons(named, order);
      r
  }

  /** The identifiers of the graphs listed in `order` are those of the first one and those of the rest. */
  lemma IdsOfCons(named: map<Ref, Graph>, order: seq<Ref>)
    requires |order| > 0 && forall i :: 0 <= i < |order| ==> order[i] in named
    ensures (set gid, id | gid in order && id in named[gid].nodes :: id)
         == named[order[0]].nodes.Keys + (set gid, id | gid in order[1..] && id in named[gid].nodes :: id)
  {
    assert forall gid :: gid in order ==> gid == order[0] || gid in order[1..];
  }

  /**
    `merge`: folds every named graph into the default graph. The fold order is
    left open (`order` is any enumeration of the named graphs); whatever it is,
    the result holds a record for every identifier of every graph, and no other.
   */
  function Merge(nm: NodeMap, order: seq<Ref>): (r: Graph)
    requires Enumerates(order, nm.named.Keys)
    requires AllWellKeyed(nm)
    ensures r.nodes.Keys == nm.default.nodes.Keys + NamedIds(nm)
    ensures WellKeyed(r)
  {
    MergeGraphs(nm.default, nm.named, order)
  }

  /**
    Iteration: the default graph first, under `None`, then every named graph
    exactly once under `Some` of its identifier, in the order `order`.
   */
  function Iter(nm: NodeMap, order: seq<Ref>): (r: seq<(Option<Ref>, Graph)>)
    requires Enumerates(order, nm.named.Keys)
    ensures |r| == |order| + 1
    ensures r[0] == (None, nm.default)
    ensures forall i :: 1 <= i < |r| ==> r[i].0.Some? && GraphOf(nm, r[i].0) == Some(r[i].1)
    ensures forall gid :: gid in nm.named ==> exists i :: 1 <= i < |r| && r[i].0 == Some(gid)
    ensures forall i, j :: 1 <= i < j < |r| ==> r[i].0 != r[j].0
  {
    var rest := seq(|order|, i requires 0 <= i < |order| => (Some(order[i]), nm.named[order[i]]));
    var r := [(None, nm.default)] + rest;
    assert forall i :: 1 <= i < |r| ==> r[i] == rest[i - 1];
    IterCovers(nm, order, r);
    r
  }

  lemma IterCovers(nm: NodeMap, order: seq<Ref>, r: seq<(Option<Ref>, Graph)>)
    requires Enumerates(order, nm.named.Keys)
    requires |r| == |order| + 1
    requires forall i :: 1 <= i < |r| ==> r[i] == (Some(order[i - 1]), nm.named[order[i - 1]])
    ensures forall i :: 1 <= i < |r| ==> r[i].0.Some? && GraphOf(nm, r[i].0) == Some(r[i].1)
    ensures forall gid :: gid in nm.named ==> exists i :: 1 <= i < |r| && r[i].0 == Some(gid)
    ensures forall i, j :: 1 <= i < j < |r| ==> r[i].0 != r[j].0
  {
    forall gid | gid in nm.named
      ensures exists i :: 1 <= i < |r| && r[i].0 == Some(gid)
    {
      var k :| 0 <= k < |order| && order[k] == gid;
      assert r[k + 1].0 == Some(gid);
    }
  }
}

=== FILE: node_map_graph.dfy ===
/**
  One graph of a node map: at most one record per node identifier, with the
  `declare_node` and `merge_node` operations that create and extend records.
 */
module NodeMapGraphs {
  import opened Wrappers
  import opened Namespaces
  import opened Objects
  import opened UniqueInsert

  /** The records of one graph, keyed by node identifier. */
  datatype Graph = Graph(nodes: map<Ref, FlatNode>)

  /** A graph without records. */
  const Empty := Graph(map[])

  /** Raised when a node is declared with an index different from the one it has. */
  datatype ConflictingIndexes = ConflictingIndexes(nodeId: Ref, definedIndex: string, conflictingIndex: string)

  predicate Contains(g: Graph, id: Ref) {
    id in g.nodes
  }

  /** `get`: the record stored for `id`, if there is one. */
  function Get(g: Graph, id: Ref): (r: Option<FlatNode>)
    ensures r.Some? <==> Contains(g, id)
    ensures r.Some? ==> r.value == g.nodes[id]
    ensures r.Some? && WellKeyed(g) ==> r.value.id == Some(id)
  {
    if id in g.nodes then Some(g.nodes[id]) else None
  }

  /** Every record is stored under its own identifier. */
  ghost predicate WellKeyed(g: Graph) {
    forall id :: id in g.nodes ==> g.nodes[id].id == Some(id)
  }

  /** Declaring `id` with `index` clashes with the index `id` already has. */
  predicate Conflicts(g: Graph, id: Ref, index: Option<string>) {
    Contains(g, id) && g.nodes[id].index.Some? && index.Some? && g.nodes[id].index != index
  }

  /**
    `declare_node`: makes sure a record for `id` exists. A new record gets the
    given index; an existing one gets it only when it has none; two different
    indexes are an error. On success the record for `id` is in the result.
   */
  function DeclareNode(g: Graph, id: Ref, index: Option<string>): (r: Result<Graph, ConflictingIndexes>)
    ensures r.Err? <==> Conflicts(g, id, index)
    ensures r.Err? ==> r.error == ConflictingIndexes(id, g.nodes[id].index.value, index.value)
    ensures r.Ok? ==> Contains(r.value, id) && r.value.nodes - {id} == g.nodes - {id}
    ensures r.Ok? && !Contains(g, id) ==> r.value.nodes[id] == WithId(id, index)
    ensures r.Ok? && Contains(g, id) ==> r.value.nodes[id] == g.nodes[id].(index := r.value.nodes[id].index)
    ensures r.Ok? && Contains(g, id) ==>
      r.value.nodes[id].index == (if g.nodes[id].index.Some? then g.nodes[id].index else index)
    ensures r.Ok? && WellKeyed(g) ==> WellKeyed(r.value)
  {
    if id in g.nodes then
      var entry := g.nodes[id];
      match (entry.index, index)
      case (Some(stored), Some(given)) =>
        if stored != given then Err(ConflictingIndexes(id, stored, given)) else Ok(g)
      case (None, Some(given)) => Ok(Graph(g.nodes[id := entry.(index := Some(given))]))
      case _ => Ok(g)
    else
      Ok(Graph(g.nodes[id := WithId(id, index)]))
  }

  /** Declaring a node again with the same index succeeds and changes nothing. */
  lemma DeclareAgain(g: Graph, id: Ref, index: Option<string>)
    requires DeclareNode(g, id, index).Ok?
    ensures DeclareNode(DeclareNode(g, id, index).value, id, index) == DeclareNode(g, id, index)
  {
  }

  /** The record `merge_node` leaves for `id`, given the record stored before (if any). */
  function MergeInto(existing: Option<FlatNode>, id: Ref, node: FlatNode): FlatNode {
    var base :=
      if existing.None? then WithId(id, node.index)
      else if node.index.Some? then existing.value.(index := node.index)
      else existing.value;
    var properties := ExtendUnique(base.properties, node.properties);
    var reverseProperties := ExtendUnique(base.reverseProperties, node.reverseProperties);
    FlatNode(base.id, base.index, base.types + node.types, node.graph, node.included, properties, reverseProperties)
  }

  /**
    `merge_node`: a record without identifier is ignored; otherwise the record
    stored under its identifier (created if absent) is merged with it and no
    other record changes.
   */
  function MergeNode(g: Graph, node: FlatNode): (r: Graph)
    ensures node.id.None? ==> r == g
    ensures node.id.Some? ==> Contains(r, node.id.value) && r.nodes - {node.id.value} == g.nodes - {node.id.value}
    ensures WellKeyed(g) ==> WellKeyed(r)
  {
    if node.id.None? then g
    else
      var id := node.id.value;
      Graph(g.nodes[id := MergeInto(Get(g, id), id, node)])
  }

  /**
    What `merge_node` does to the record of the incoming node's identifier: it
    takes the incoming index when there is one, appends the incoming types,
    takes the incoming graph and included nodes, and gains the incoming
    (property, value) pairs, keeping its own in order and repeating none.
   */
  lemma MergeNodeEffect(g: Graph, node: FlatNode)
    requires node.id.Some?
    ensures
      var before := Get(g, node.id.value);
      var after := MergeNode(g, node).nodes[node.id.value];
      && after.types == (if before.Some? then before.value.types else []) + node.types
      && after.index == (if node.index.Some? || before.None? then node.index else before.value.index)
      && after.graph == node.graph
      && after.included == node.included
      && PairsMerged(if before.Some? then before.value.properties else map[], node.properties, after.properties)
      && PairsMerged(if before.Some? then before.value.reverseProperties else map[], node.reverseProperties, after.reverseProperties)
      && ((before.Some? ==> DuplicateFree(before.value.properties)) ==> DuplicateFree(after.properties))
      && ((before.Some? ==> DuplicateFree(before.value.reverseProperties)) ==> DuplicateFree(after.reverseProperties))
  {
  }

  /** Merging the same record twice adds no (property, value) pair the second time. */
  lemma MergeTwiceAddsNoPairs(g: Graph, node: FlatNode)
    requires node.id.Some?
    ensures MergeNode(MergeNode(g, node), node).nodes[node.id.value].properties
         == MergeNode(g, node).nodes[node.id.value].properties
    ensures MergeNode(MergeNode(g, node), node).nodes[node.id.value].reverseProperties
         == MergeNode(g, node).nodes[node.id.value].reverseProperties
  {
    var id := node.id.value;
    var once := MergeNode(g, node).nodes[id];
    var base := if Get(g, id).None? then WithId(id, node.index)
      else if node.index.Some? then Get(g, id).value.(index := node.index) else Get(g, id).value;
    ExtendIdempotent(base.properties, node.properties);
    ExtendIdempotent(base.reverseProperties, node.reverseProperties);
  }

  /** `merge_with`, visiting the records of `other` in the order `order`. */
  function MergeWithInOrder(g: Graph, other: Graph, order: seq<Ref>): Graph
    requires forall i :: 0 <= i < |order| ==> order[i] in other.nodes
    decreases |order|
  {
    if |order| == 0 then g
    else MergeWithInOrder(MergeNode(g, other.nodes[order[0]]), other, order[1..])
  }

  /** The records of `g` after the records of `other` listed in `ids` are merged in. */
  function MergeSome(g: Graph, other: Graph, ids: set<Ref>): Graph
    requires ids <= other.nodes.Keys
  {
    Graph(map id | id in g.nodes.Keys + ids ::
      if id in ids then MergeInto(Get(g, id), id, other.nodes[id]) else g.nodes[id])
  }

  /**
    `merge_with`: every record of `other` merged into `g`. Records of distinct
    identifiers do not interact, so no visiting order is singled out.
   */
  function MergeWith(g: Graph, other: Graph): (r: Graph)
    requires WellKeyed(other)
    ensures r.nodes.Keys == g.nodes.Keys + other.nodes.Keys
    ensures WellKeyed(g) ==> WellKeyed(r)
  {
    MergeSome(g, other, other.nodes.Keys)
  }
  /**
    `contains` follows the graph's edits: nothing is contained in an empty
    graph, a successful `declare_node` makes exactly its id contained in
    addition, and after `merge_with` an id is contained exactly when either
    graph contained it.
   */
  lemma ContainsTracksEdits(g: Graph, other: Graph, id: Ref, index: Option<string>, k: Ref)
    ensures !Contains(Empty, k)
    ensures DeclareNode(g, id, index).Ok? ==> (Contains(DeclareNode(g, id, index).value, k) <==> Contains(g, k) || k == id)
    ensures WellKeyed(other) ==> (Contains(MergeWith(g, other), k) <==> Contains(g, k) || Contains(other, k))
  {
    if DeclareNode(g, id, index).Ok? && k != id {
      assert k in DeclareNode(g, id, index).value.nodes - {id} <==> k in g.nodes - {id};
    }
  }


  /** Merging one record first and the others afterwards is merging them all. */
  lemma MergeSomeStep(g: Graph, other: Graph, ids: set<Ref>, k: Ref)
    requires WellKeyed(other)
    requires ids <= other.nodes.Keys && k in ids
    ensures MergeSome(MergeNode(g, other.nodes[k]), other, ids - {k}) == MergeSome(g, other, ids)
  {
    var g' := MergeNode(g, other.nodes[k]);
    var lhs := MergeSome(g', other, ids - {k});
    var rhs := MergeSome(g, other, ids);
    assert lhs.nodes.Keys == rhs.nodes.Keys;
    forall id | id in lhs.nodes
      ensures lhs.nodes[id] == rhs.nodes[id]
    {
      if id != k {
        assert Get(g', id) == Get(g, id);
      }
    }
  }

  /** The elements of a sequence without duplicates, after its first one, are the others. */
  lemma ElementsOfTail(order: seq<Ref>)
    requires NoDuplicates(order) && |order| > 0
    ensures (set x | x in order[1..]) == (set x | x in order) - {order[0]}
  {
    forall x | x in order[1..]
      ensures x != order[0]
    {
      var i :| 0 <= i < |order[1..]| && order[1..][i] == x;
      assert order[i + 1] == x;
    }
  }

  lemma {:induction false} MergeInOrderIsMergeSome(g: Graph, other: Graph, order: seq<Ref>)
    requires WellKeyed(other)
    requires NoDuplicates(order)
    requires forall i :: 0 <= i < |order| ==> order[i] in other.nodes
    ensures MergeWithInOrder(g, other, order) == MergeSome(g, other, set x | x in order)
    decreases |order|
  {
    if |order| == 0 {
      assert MergeSome(g, other, set x | x in order).nodes == g.nodes;
    } else {
      var k := order[0];
      assert NoDuplicates(order[1..]);
      MergeInOrderIsMergeSome(MergeNode(g, other.nodes[k]), other, order[1..]);
      ElementsOfTail(order);
      MergeSomeStep(g, other, (set x | x in order), k);
    }
  }

  /** Visiting the records of `other` in any order whatever gives the result of `merge_with`. */
  lemma MergeWithAnyOrder(g: Graph, other: Graph, order: seq<Ref>)
    requires WellKeyed(other)
    requires Enumerates(order, other.nodes.Keys)
    ensures MergeWithInOrder(g, other, order) == MergeWith(g, other)
  {
    MergeInOrderIsMergeSome(g, other, order);
    assert (set x | x in order) == other.nodes.Keys;
  }
}

=== FILE: objects.dfy ===
/**
  Expanded objects (the input of flattening), flattened objects (its output)
  and node records (the entries of a node map graph).
 */
module Objects {
  import opened Wrappers
  import opened Namespaces
  import LangStrings

  /** A literal, copied verbatim by flattening. */
  datatype Value =
    | Literal(lexical: string, datatypeIri: Option<Ref>)
    | LangString(text: LangStrings.LangString)

  /** An expanded object: a value, a list, or an embedded node. */
  datatype Object =
    | ValueObject(value: Value)
    | ListObject(items: seq<IndexedObject>)
    | NodeObject(node: Node)

  /** An expanded object with its optional `@index`. */
  datatype IndexedObject = IndexedObject(inner: Object, index: Option<string>)

  /** A set of the source given as one enumeration of it. */
  datatype Members<T> = Members(items: seq<T>)

  /** One entry of a property map: the property and its values, enumerated. */
  datatype Entry<T> = Entry(property: Ref, values: seq<T>)

  /**
    An expanded node. Graph content, included nodes and the property maps are
    given as sequences: one enumeration of the source's sets and hash maps.
   */
  datatype Node = Node(
    id: Option<Ref>,
    types: seq<Ref>,
    graph: Option<Members<IndexedObject>>,
    included: Option<Members<IndexedNode>>,
    properties: seq<Entry<IndexedObject>>,
    reverseProperties: seq<Entry<IndexedNode>>)

  /** An expanded node with its optional `@index`. */
  datatype IndexedNode = IndexedNode(inner: Node, index: Option<string>)

  /** A flattened object: nodes are replaced by bare references to their records. */
  datatype Flat =
    | FlatValue(value: Value)
    | FlatList(items: seq<IndexedFlat>)
    | FlatRef(id: Ref)

  /** A flattened object with its optional `@index`. */
  datatype IndexedFlat = IndexedFlat(inner: Flat, index: Option<string>)

  /** The flattened form of a node mention: an id-only reference without index. */
  function RefTo(id: Ref): IndexedFlat {
    IndexedFlat(FlatRef(id), None)
  }

  /**
    A node record: the node with its index. Graph content is a set, so
    structurally equal flattened objects are kept once.
   */
  datatype FlatNode = FlatNode(
    id: Option<Ref>,
    index: Option<string>,
    types: seq<Ref>,
    graph: Option<set<IndexedFlat>>,
    included: Option<set<FlatNode>>,
    properties: map<Ref, seq<IndexedFlat>>,
    reverseProperties: map<Ref, seq<FlatNode>>)

  /** A record holding nothing but its identifier and index. */
  function WithId(id: Ref, index: Option<string>): FlatNode {
    FlatNode(Some(id), index, [], None, None, map[], map[])
  }

  /** The members of a record's graph content (none when it has no graph). */
  function GraphContent(n: FlatNode): set<IndexedFlat> {
    if n.graph.Some? then n.graph.value else {}
  }

  /** Every node identifier a flattened object refers to, at any depth. */
  function Refs(f: IndexedFlat): set<Ref>
  {
    match f.inner
    case FlatValue(_) => {}
    case FlatRef(id) => {id}
    case FlatList(items) => set i, r | 0 <= i < |items| && r in Refs(items[i]) :: r
  }

  /** Every node identifier referred to from a collection of flattened objects. */
  function RefsOfSeq(s: seq<IndexedFlat>): set<Ref> {
    set i, r | 0 <= i < |s| && r in Refs(s[i]) :: r
  }

  function RefsOfSet(s: set<IndexedFlat>): set<Ref> {
    set f, r | f in s && r in Refs(f) :: r
  }

  /** Every node identifier referred to from a record's forward properties. */
  function RefsOfProperties(props: map<Ref, seq<IndexedFlat>>): set<Ref> {
    set p, i, r | p in props && 0 <= i < |props[p]| && r in Refs(props[p][i]) :: r
  }

  /**
    `f` is a flattening of `o`: values are copied with their index, lists keep
    their index, length and order, and nodes become id-only references without
    index.
   */
  predicate Corresponds(o: IndexedObject, f: IndexedFlat) {
    match o.inner
    case ValueObject(v) => f == IndexedFlat(FlatValue(v), o.index)
    case ListObject(items) =>
      && f.index == o.index
      && f.inner.FlatList?
      && |f.inner.items| == |items|
      && forall i :: 0 <= i < |items| ==> Corresponds(items[i], f.inner.items[i])
    case NodeObject(n) =>
      && f.index.None? && f.inner.FlatRef?
      && (n.id.Some? && !n.id.value.Blank? ==> f.inner.id == n.id.value)
  }
}

=== FILE: scenarios.dfy ===
/**
  Small worked cases of declaring nodes and flattening a document, fixing the
  behaviour on concrete inputs.
 */
module Scenarios {
  import opened Wrappers
  import opened Namespaces
  import opened Objects
  import opened UniqueInsert
  import opened NodeMapGraphs
  import opened NodeMaps
  import opened Invariants
  import opened Descriptions
  import opened Flattening

  const A := Iri("http://example.org/a")

  /** A node object identified by `A`, with nothing else, and the given index. */
  function NodeA(index: Option<string>): IndexedObject {
    IndexedObject(NodeObject(Node(Some(A), [], None, None, [], [])), index)
  }

  /** Declaring `A` with index "1", then again with "1", without index, and with "2". */
  lemma IndexScenario()
    ensures DeclareNode(NodeMapGraphs.Empty, A, Some("1")).Ok?
    ensures
      var g := DeclareNode(NodeMapGraphs.Empty, A, Some("1")).value;
      && DeclareNode(g, A, Some("1")) == Ok(g)
      && DeclareNode(g, A, None) == Ok(g)
      && DeclareNode(g, A, Some("2")) == Err(ConflictingIndexes(A, "1", "2"))
  {
  }

  /** The state after declaring `A` with index "1". */
  const Indexed1 := State(Fresh, NodeMap(map[], Graph(map[A := WithId(A, Some("1"))])))

  /** The first occurrence of `A` gets a new record carrying index "1". */
  lemma FirstDeclared(gen: Generator)
    ensures Extend(gen, St0, NodeA(Some("1")), None) == Ok(Step(Indexed1, RefTo(A)))
  {
    var node := NodeA(None).inner.node;
    BareNode(gen, St0, node, Some("1"), None);
    DeclareUnseen(gen, St0, node, Some("1"), None);
    assert SetRecord(St0.nm, None, A, WithId(A, Some("1"))) == Indexed1.nm;
  }

  /** The second occurrence of `A`, with index "2", clashes with the stored "1". */
  lemma SecondConflicts(gen: Generator)
    ensures Extend(gen, Indexed1, NodeA(Some("2")), None) == Err(ConflictingIndexes(A, "1", "2"))
  {
    var node := NodeA(None).inner.node;
    BareNode(gen, Indexed1, node, Some("2"), None);
    assert Conflicts(GraphOf(Indexed1.nm, None).value, A, Some("2"));
  }

  /** A document naming one node twice with different indexes fails with that conflict. */
  lemma ConflictingDocument(gen: Generator)
    ensures GenerateNodeMap(gen, [NodeA(Some("1")), NodeA(Some("2"))]) == Err(ConflictingIndexes(A, "1", "2"))
  {
    FirstDeclared(gen);
    SecondConflicts(gen);
    var doc := [NodeA(Some("1")), NodeA(Some("2"))];
    assert doc[0] == NodeA(Some("1")) && doc[1..] == [NodeA(Some("2"))];
    assert ExtendSeq(gen, Indexed1, doc[1..], None) == Err(ConflictingIndexes(A, "1", "2"));
  }

  const B := Iri("http://example.org/b")
  const P := Iri("http://example.org/knows")

  /** The subject `B` of the reverse property `P` of node `A`, and the document holding `A`. */
  const Subject := IndexedNode(Node(Some(B), [], None, None, [], []), None)
  const Rev := [Entry(P, [Subject])]
  const NodeWithReverse := Node(Some(A), [], None, None, [], Rev)
  const Doc := [IndexedObject(NodeObject(NodeWithReverse), None)]

  /** The states the walk over `Doc` passes through. */
  const St0 := State(Fresh, NodeMaps.Empty)
  const St1 := State(Fresh, NodeMap(map[], Graph(map[A := WithId(A, None)])))
  const St2 := State(Fresh, NodeMap(map[], Graph(map[A := WithId(A, None), B := WithId(B, None)])))
  const Edged := WithId(B, None).(properties := map[P := [RefTo(A)]])
  const St3 := State(Fresh, NodeMap(map[], Graph(map[A := WithId(A, None), B := Edged])))

  /** Declaring `A`, then `B`, each as a new bare record. */
  lemma DeclareBoth(gen: Generator)
    ensures DeclareStep(gen, St0, NodeWithReverse, None, None) == Ok(Step(St1, A))
    ensures NestedStep(gen, St1, NodeWithReverse, A, None) == Ok(St1)
    ensures ExtendIndexed(gen, St1, Subject, None) == Ok(Step(St2, B))
  {
    DeclareUnseen(gen, St0, NodeWithReverse, None, None);
    assert SetRecord(St0.nm, None, A, WithId(A, None)) == St1.nm;
    assert GraphStep(gen, St1, NodeWithReverse, A, None) == Ok(Step(St1, {}));
    BareNode(gen, St1, Subject.inner, None, None);
    DeclareUnseen(gen, St1, Subject.inner, None, None);
    assert SetRecord(St1.nm, None, B, WithId(B, None)) == St2.nm;
  }

  /** Listing `P -> A` in the record of `B`. */
  lemma EdgeOnSubject()
    ensures AddEdge(St2.nm, None, B, P, A) == St3.nm
  {
    var props := InsertUnique(WithId(B, None).properties, P, RefTo(A));
    assert [] + [RefTo(A)] == [RefTo(A)];
    assert props.Keys == map[P := [RefTo(A)]].Keys && props[P] == [RefTo(A)];
    assert props == map[P := [RefTo(A)]];
    assert RecordOf(St2.nm, None, B) == WithId(B, None);
    assert SetRecord(St2.nm, None, B, Edged) == St3.nm;
  }

  /** The subject `B` is flattened and gets the edge `P -> A`. */
  lemma SubjectGetsEdge(gen: Generator)
    ensures ExtendSubjects(gen, St1, P, [Subject], A, None) == Ok(Step(St3, [B]))
  {
    DeclareBoth(gen);
    EdgeOnSubject();
    NothingLeft(gen);
    SubjectShape();
  }

  lemma SubjectShape()
    ensures [Subject][1..] == [] && [Subject][0] == Subject && [B] + [] == [B]
    ensures State(St2.ns, St3.nm) == St3
  {
  }

  lemma NothingLeft(gen: Generator)
    ensures ExtendReverse(gen, St3, [], A, None) == Ok(Step(St3, []))
    ensures ExtendSeq(gen, St3, [], None) == Ok(Step(St3, []))
    ensures ExtendSubjects(gen, St3, P, [], A, None) == Ok(Step(St3, []))
  {
  }

  lemma ReverseOfA(gen: Generator)
    ensures ExtendReverse(gen, St1, Rev, A, None) == Ok(Step(St3, [[B]]))
  {
    SubjectGetsEdge(gen);
    NothingLeft(gen);
    RevShape();
  }

  lemma RevShape()
    ensures Rev[0].property == P && Rev[0].values == [Subject] && Rev[1..] == [] && [[B]] + [] == [[B]]
  {
  }

  lemma EdgesOfA(gen: Generator)
    ensures EdgesStep(gen, St1, NodeWithReverse, A, None) == Ok(St3)
  {
    ReverseOfA(gen);
    assert ExtendProperties(gen, St1, [], A, None) == Ok(St1);
  }

  lemma NodeWithReverseFlattened(gen: Generator)
    ensures Extend(gen, St0, Doc[0], None) == Ok(Step(St3, RefTo(A)))
  {
    NodeFlattened(gen);
    NodeElement(gen, St0, Doc[0], None);
  }

  /** A node element is flattened as its node, and replaced by a reference. */
  lemma NodeElement(gen: Generator, st: State, element: IndexedObject, active: Option<Ref>)
    requires GraphOf(st.nm, active).Some? && element.inner.NodeObject?
    ensures Extend(gen, st, element, active)
         == match ExtendNode(gen, st, element.inner.node, element.index, active)
            case Ok(s) => Ok(Step(s.state, RefTo(s.out)))
            case Err(e) => Err(e)
  {
  }

  lemma NodeFlattened(gen: Generator)
    ensures ExtendNode(gen, St0, NodeWithReverse, None, None) == Ok(Step(St3, A))
  {
    DeclareBoth(gen);
    EdgesOfA(gen);
  }

  lemma DocFlattened(gen: Generator)
    ensures ExtendSeq(gen, St0, Doc, None) == Ok(Step(St3, [RefTo(A)]))
  {
    NodeWithReverseFlattened(gen);
    NothingLeft(gen);
    assert Doc[1..] == [] && [RefTo(A)] + [] == [RefTo(A)];
  }

  /**
    A node `A` whose reverse property `P` has the subject `B`: the node map has
    a record for each, `B` gets the forward edge `P -> A`, and `A` keeps no
    reverse property.
   */
  lemma ReverseScenario(gen: Generator)
    ensures
      var r := GenerateNodeMap(gen, Doc);
      && r.Ok?
      && r.value.default.nodes.Keys == {A, B}
      && r.value.default.nodes[B].properties == map[P := [RefTo(A)]]
      && r.value.default.nodes[A].reverseProperties == map[]
      && r.value.named == map[]
  {
    DocFlattened(gen);
  }

  /** The node `A` with the property `P` whose one object is the node `B`: `A` knows `B`. */
  const Knows := Node(Some(A), [], None, None, [Entry(P, [IndexedObject(NodeObject(Subject.inner), None)])], [])
  const KnowsDoc := [IndexedObject(NodeObject(Knows), None)]

  /** From any state, flattening `Knows` succeeds and lists `P -> node(B)` in the record of `A`. */
  lemma KnowsListed(gen: Generator, st: State)
    requires GraphOf(st.nm, None).Some?
    ensures ExtendNode(gen, st, Knows, None, None).Ok?
    ensures Lists(ExtendNode(gen, st, Knows, None, None).value.state.nm, None, A, P, RefTo(B))
  {
    KnowsUnindexed();
    ObjectListed(gen, st, Knows, None, None, 0, 0);
  }

  lemma KnowsUnindexed()
    ensures UnindexedNode(Knows)
    ensures Known(Knows.properties[0].values[0]) == Some(RefTo(B))
    ensures Knows.properties[0].property == P && Identified(Knows) && Knows.id.value == A
  {
    assert UnindexedNode(Subject.inner);
    assert AllUnindexed(Knows.properties[0].values);
  }

  /** After a node is flattened, its record lists the known form of each of its objects. */
  lemma ObjectListed(gen: Generator, st: State, node: Node, index: Option<string>, active: Option<Ref>, i: nat, j: nat)
    requires GraphOf(st.nm, active).Some? && Identified(node)
    requires ExtendNode(gen, st, node, index, active).Ok?
    requires i < |node.properties| && j < |node.properties[i].values| && Known(node.properties[i].values[j]).Some?
    ensures Lists(ExtendNode(gen, st, node, index, active).value.state.nm, active, node.id.value,
                  node.properties[i].property, Known(node.properties[i].values[j]).value)
  {
    var r := ExtendNode(gen, st, node, index, active).value;
    DescribedListsKnown(gen, r.state, active, node, r.out, i, j);
  }

  /** A document holding `A knows B` flattens into a default graph where `A` has `P: [node(B)]`. */
  lemma ForwardScenario(gen: Generator)
    ensures
      var r := GenerateNodeMap(gen, KnowsDoc);
      && r.Ok?
      && A in r.value.default.nodes
      && P in r.value.default.nodes[A].properties
      && RefTo(B) in r.value.default.nodes[A].properties[P]
  {
    KnowsListed(gen, St0);
    NodeElement(gen, St0, KnowsDoc[0], None);
    var first := ExtendNode(gen, St0, Knows, None, None).value.state;
    assert KnowsDoc[1..] == [];
    assert ExtendSeq(gen, first, [], None) == Ok(Step(first, []));
  }
}

=== FILE: unique.dfy ===
/**
  Insertion without duplicates into the value lists of a property map: a
  (property, value) pair is appended only when it is not already present.
 */
module UniqueInsert {

  /** No element occurs twice. */
  predicate NoDuplicates<T(==)>(s: seq<T>) {
    forall i, j :: 0 <= i < j < |s| ==> s[i] != s[j]
  }

  /** `order` lists every element of `s` exactly once: one iteration order of a hashed collection. */
  predicate Enumerates<T(==)>(order: seq<T>, s: set<T>) {
    && NoDuplicates(order)
    && (forall i :: 0 <= i < |order| ==> order[i] in s)
    && (forall x :: x in s ==> x in order)
  }

  /** Appends each of `ys`, in order, unless it is already present (earlier appends included). */
  function AppendUnique<T(==)>(xs: seq<T>, ys: seq<T>): (r: seq<T>)
    ensures xs <= r
    ensures forall y :: y in ys ==> y in r
    ensures forall z :: z in r ==> z in xs || z in ys
    ensures NoDuplicates(xs) ==> NoDuplicates(r)
    decreases |ys|
  {
    if |ys| == 0 then xs
    else
      var xs' := if ys[0] in xs then xs else xs + [ys[0]];
      var r := AppendUnique(xs', ys[1..]);
      assert ys[0] in r by {
        var k :| 0 <= k < |xs'| && xs'[k] == ys[0];
        assert r[k] == xs'[k];
      }
      assert forall y :: y in ys ==> y == ys[0] || y in ys[1..];
      r
  }

  /** Appending one value adds it exactly when it is absent. */
  lemma AppendOne<T>(xs: seq<T>, v: T)
    ensures AppendUnique(xs, [v]) == if v in xs then xs else xs + [v]
  {
    assert [v][1..] == [];
  }

  /** Appending values that are all present already changes nothing. */
  lemma {:induction false} AppendPresent<T>(xs: seq<T>, ys: seq<T>)
    requires forall y :: y in ys ==> y in xs
    ensures AppendUnique(xs, ys) == xs
    decreases |ys|
  {
    if |ys| > 0 {
      AppendPresent(xs, ys[1..]);
    }
  }

  /** Appending the same values twice adds nothing the second time. */
  lemma AppendIdempotent<T>(xs: seq<T>, ys: seq<T>)
    ensures AppendUnique(AppendUnique(xs, ys), ys) == AppendUnique(xs, ys)
  {
    AppendPresent(AppendUnique(xs, ys), ys);
  }

  /** The values stored under `p`, or none. */
  function ValuesOf<K, V>(m: map<K, seq<V>>, p: K): seq<V> {
    if p in m then m[p] else []
  }

  /** `insert_all_unique`: adds every value of `vs` under `p`, skipping pairs already present. */
  function InsertAllUnique<K, V(==)>(m: map<K, seq<V>>, p: K, vs: seq<V>): (r: map<K, seq<V>>)
    ensures r.Keys == m.Keys + {p}
    ensures forall q :: q in m && q != p ==> r[q] == m[q]
    ensures ValuesOf(m, p) <= r[p]
    ensures forall v :: v in vs ==> v in r[p]
    ensures forall v :: v in r[p] ==> v in ValuesOf(m, p) || v in vs
  {
    m[p := AppendUnique(ValuesOf(m, p), vs)]
  }

  /** `insert_unique`: adds `v` under `p` unless that pair is present. */
  function InsertUnique<K, V(==)>(m: map<K, seq<V>>, p: K, v: V): (r: map<K, seq<V>>)
    ensures r.Keys == m.Keys + {p}
    ensures forall q :: q in m && q != p ==> r[q] == m[q]
    ensures v in r[p]
    ensures p in m && v in m[p] ==> r == m
    ensures v !in ValuesOf(m, p) ==> r[p] == ValuesOf(m, p) + [v]
  {
    AppendOne(ValuesOf(m, p), v);
    InsertAllUnique(m, p, [v])
  }

  /**
    `after` holds the (property, value) pairs of `before` in their original
    order, every pair of `incoming`, and nothing else.
   */
  ghost predicate PairsMerged<K, V>(before: map<K, seq<V>>, incoming: map<K, seq<V>>, after: map<K, seq<V>>) {
    && after.Keys == before.Keys + incoming.Keys
    && (forall p :: p in before ==> before[p] <= after[p])
    && (forall p, v :: p in incoming && v in incoming[p] ==> v in after[p])
    && (forall p, v :: p in after && v in after[p] ==> v in ValuesOf(before, p) || v in ValuesOf(incoming, p))
  }

  /** No property lists a value twice. */
  ghost predicate DuplicateFree<K, V>(props: map<K, seq<V>>) {
    forall p :: p in props ==> NoDuplicates(props[p])
  }

  /**
    `extend_unique`: inserts every (property, value) pair of `other`, skipping
    pairs already present. Properties are independent of each other, so the
    result does not depend on the order in which `other` is visited.
   */
  function ExtendUnique<K, V(==)>(m: map<K, seq<V>>, other: map<K, seq<V>>): (r: map<K, seq<V>>)
    ensures PairsMerged(m, other, r)
    ensures DuplicateFree(m) ==> DuplicateFree(r)
  {
    map p | p in m.Keys + other.Keys ::
      if p in other then AppendUnique(ValuesOf(m, p), other[p]) else m[p]
  }

  /** Extending twice with the same map adds no pair the second time. */
  lemma ExtendIdempotent<K, V>(m: map<K, seq<V>>, other: map<K, seq<V>>)
    ensures ExtendUnique(ExtendUnique(m, other), other) == ExtendUnique(m, other)
  {
    var once := ExtendUnique(m, other);
    var twice := ExtendUnique(once, other);
    forall p | p in twice
      ensures twice[p] == once[p]
    {
      if p in other {
        AppendIdempotent(ValuesOf(m, p), other[p]);
      }
    }
  }
}

=== FILE: version.dfy ===
/**
  The `@version` keyword of a JSON-LD 1.1 context (section 9.15 of JSON-LD 1.1):
  the only version is `1.1`, written as that string and as its three bytes.
 */
module Versions {
  import opened Wrappers

  type Byte = b: int | 0 <= b < 256

  /** The JSON-LD processing mode version; `1.1` is the only value. */
  datatype Version = V1_1

  /** Raised when a string does not name a known version; carries the string. */
  datatype UnknownVersion = UnknownVersion(text: string)

  /** The textual form of the version. */
  function IntoStr(v: Version): string {
    match v
    case V1_1 => "1.1"
  }

  /** The textual form of the version, as bytes. */
  function IntoBytes(v: Version): seq<Byte> {
    match v
    case V1_1 => [0x31, 0x2E, 0x31]
  }

  /** Parses a version: exactly the printed form of a version is accepted. */
  function FromStr(s: string): (r: Result<Version, UnknownVersion>)
    ensures r.Ok? <==> exists v: Version :: IntoStr(v) == s
    ensures r.Ok? ==> IntoStr(r.value) == s
    ensures r.Err? ==> r.error.text == s
  {
    if s == "1.1" then
      assert IntoStr(V1_1) == s;
      Ok(V1_1)
    else
      Err(UnknownVersion(s))
  }

  /** UTF-8 encoding of an ASCII string: one byte per character, of the same code. */
  function AsciiBytes(s: string): (r: seq<Byte>)
    requires forall i :: 0 <= i < |s| ==> s[i] as int < 128
    ensures |r| == |s|
    ensures forall i :: 0 <= i < |s| ==> r[i] == s[i] as int
  {
    seq(|s|, i requires 0 <= i < |s| => s[i] as int)
  }

  /** `PartialEq`: any two versions compare equal. */
  predicate Equal(a: Version, b: Version) {
    true
  }

  /** What `Hash` feeds to the hasher: the textual form. */
  function HashInput(v: Version): string {
    IntoStr(v)
  }

  /** Printing then parsing gives the version back. */
  lemma RoundTrip(v: Version)
    ensures FromStr(IntoStr(v)) == Ok(v)
  {
  }

  /** Parsing then printing gives the string back. */
  lemma ParseThenPrint(s: string)
    ensures FromStr(s).Ok? ==> IntoStr(FromStr(s).value) == s
    ensures FromStr(s).Err? ==> FromStr(s) == Err(UnknownVersion(s))
  {
  }

  /** The bytes are the UTF-8 encoding of the textual form, which is ASCII. */
  lemma BytesAreStr(v: Version)
    ensures forall i :: 0 <= i < |IntoStr(v)| ==> IntoStr(v)[i] as int < 128
    ensures IntoBytes(v) == AsciiBytes(IntoStr(v))
  {
  }

  /** Equal versions hash the same, so `Hash` agrees with `PartialEq`. */
  lemma HashAgreesWithEqual(a: Version, b: Version)
    ensures Equal(a, b)
    ensures Equal(a, b) ==> HashInput(a) == HashInput(b)
  {
  }
}

=== FILE: wrappers.dfy ===
/** Failure-compatible Option and Result datatypes, usable with `:-`. */
module Wrappers {

  datatype Option<+T> = None | Some(value: T) {

    /** The wrapped value, or `default` when there is none. */
    function GetOr(default: T): T {
      match this
      case Some(v) => v
      case None => default
    }
  }

  /** The outcome of a fallible operation: a value or an error. */
  datatype Result<+T, +E> = Ok(value: T) | Err(error: E) {

    predicate IsFailure() {
      Err?
    }

    function PropagateFailure<U>(): Result<U, E>
      requires Err?
    {
      Err(error)
    }

    function Extract(): T
      requires Ok?
    {
      value
    }
  }
}
